=== FILE: README.md ===
# react-ts-cart: cart, checkout and product-route logic in Dafny

This project models the logic inside the react-ts-cart storefront. It covers four pieces:

- **The shopping-cart store** (`ShoppingCartContext`). The cart is a list of `{product, quantity}` lines. `consolidateItems` merges lines that share a product id. The mount effect clears carts stored in the retired numeric-`id` shape and consolidates the rest. There are query functions (`getItemQuantity`, `cartQuantity`) and edit functions (`increaseCartQuantity`, `decreaseCartQuantity`, `removeFromCart`). The cart page drops malformed entries, merges the rest, and counts items.
- **The checkout validators and formatters** (`validation.ts`). These are:
  - the Luhn card-number check;
  - the CVV, ZIP, `MM/YY` expiry, e-mail and phone checks;
  - `validateCheckoutForm`;
  - the three keystroke formatters.
- **The checkout page** (`Checkout.tsx`). It has a step counter guarded by per-step required-field checks. It derives the step indicator's flags. Its edit handler formats the value and clears that field's message. Its submit handler is gated by full-form validation, and the page renders nothing for an empty cart.
- **The product route**. A product link carries the first eight dash-free characters of the product id, read in hexadecimal and written in decimal. The product page reads the number back, writes it in hexadecimal padded to eight characters, and looks the product up.

Everything is a pure function over immutable values:

- the cart is a `seq<CartLine>`;
- the form is a record;
- the error object is a `map<ErrorKey, string>`;
- strings are `seq<char>`.

The current date, the simulated payment's result and the product catalog are parameters.

The modules follow the source:

| module | models |
|---|---|
| `Text` | JavaScript white space, `trim`, `substring`, `padStart`, `replace` with a character class |
| `Radix` | `parseInt` (ECMAScript section 19.2.5) and `Number#toString` for radices 10 and 16 |
| `CartStore` | `ShoppingCartContext.tsx` |
| `CartPage` | `Cart.tsx` |
| `Luhn` | the mod-10 check of ISO/IEC 7812-1, Annex B |
| `Form` | the checkout form record and its error keys |
| `Validation` | the validators and `validateCheckoutForm` |
| `Formatting` | the three formatters |
| `Checkout` | `Checkout.tsx` |
| `ProductRoute` | the route encoder and the product page's lookup |

## Model

| member | source | states |
|---|---|---|
| CartStore.Find | src/context/ShoppingCartContext.tsx:44 | `find` by product id returns the first line carrying the id. No earlier line carries it. It finds a line exactly when the id is in the cart. |
| CartStore.ConsolidateSpec | src/context/ShoppingCartContext.tsx:42-52 | The result has one line per distinct input id, ordered by first occurrence. Each line keeps the product snapshot of that first occurrence and carries the id's summed quantity. The set of ids and the total quantity are unchanged, and the result is no longer than the input. |
| CartStore.ConsolidateUnique | src/context/ShoppingCartContext.tsx:42-52 | A list whose ids are already unique is returned unchanged. |
| CartStore.ConsolidateIdempotent | src/context/ShoppingCartContext.tsx:42-52 | Consolidating twice gives the same list as consolidating once. |
| CartStore.ConsolidateLength | src/context/ShoppingCartContext.tsx:67-72 | Consolidation keeps the length exactly when the ids were unique. This is the test the mount effect relies on. |
| CartStore.ConsolidateQuantities | src/context/ShoppingCartContext.tsx:42-52 | Every id's summed quantity is the same before and after consolidation. |
| CartStore.ConsolidatePositiveWhen | src/context/ShoppingCartContext.tsx:42-52 | If every input line holds at least one unit, so does every merged line. |
| CartStore.Hydrate | src/context/ShoppingCartContext.tsx:55-73 | A cart holding a legacy numeric-id entry is cleared and rewritten. Otherwise the result is the consolidated list. It is rewritten exactly when some id repeats, and a cart with unique ids is kept as stored. The result never has duplicate ids. |
| CartStore.GetItemQuantity | src/context/ShoppingCartContext.tsx:82-84 | An id with no line gives 0. Otherwise the result is the quantity of the first line carrying the id, also on a stored cart that still repeats ids before the mount effect consolidates it. On a cart with unique ids, this is the quantity held for that id. |
| CartStore.CartQuantityPositive | src/context/ShoppingCartContext.tsx:75-77 | When every line holds at least one unit, `cartQuantity` is at least the number of lines. It is 0 exactly when the cart is empty. |
| CartStore.Increase | src/context/ShoppingCartContext.tsx:86-105 | The result has unique ids and the product's id joins the cart. That id's quantity and the total each rise by exactly one, and no other id's quantity changes. An absent product is appended to the consolidated list as `{product, 1}`. A present one keeps its line's original snapshot, and every other line is unchanged. |
| CartStore.Decrease | src/context/ShoppingCartContext.tsx:107-126 | A present id loses exactly one unit. Its line disappears when that was the last unit. No other id changes, and the total drops by one. An absent id yields the consolidated list. Positive quantities stay positive. On the last unit the result is the consolidated list with that id's line filtered out, so the other lines keep their order. Otherwise the result has the consolidated list's lines in the same order, each with its product snapshot, and only the id's line changes. |
| CartStore.IncreaseThenDecrease | src/context/ShoppingCartContext.tsx:86-126 | Adding a product the cart lacks and then decreasing it gives back the consolidated original cart. |
| CartStore.RemoveFromCart | src/context/ShoppingCartContext.tsx:128-132 | Every surviving line is an input line without the id. The id leaves the set of ids and the others stay. |
| CartStore.RemoveFromCartAbsent | src/context/ShoppingCartContext.tsx:128-132 | Removing an id no line carries leaves the list unchanged. |
| CartStore.RemoveFromCartQuantities | src/context/ShoppingCartContext.tsx:128-132 | The removed id's quantity becomes 0 and every other id keeps its quantity. The total drops by exactly the removed quantity. |
| CartStore.RemoveFromCartOrder | src/context/ShoppingCartContext.tsx:130 | Surviving lines keep their relative order. |
| CartStore.RemoveFromCartKeeps | src/context/ShoppingCartContext.tsx:128-132 | Removal keeps ids unique and quantities positive. |
| CartPage.ConsolidatedCartItems | src/pages/Cart.tsx:20-35 | Entries without a product or with an empty id are dropped. The merged list is exactly the consolidation of the rest, and no merged line has an empty id. |
| CartPage.TotalItemsMatchesMerged | src/pages/Cart.tsx:38-42 | When every entry is well formed, `totalItems` equals the merged list's total quantity. |
| CartPage.TotalItemsExact | src/pages/Cart.tsx:20-42 | On any list of entries, `totalItems` is the merged list's total plus the summed quantities of the malformed entries. The filter drops those entries, but the count includes them. |
| CartPage.TotalItemsCountsMalformed | src/pages/Cart.tsx:38-42 | Suppose every entry is well formed and one malformed entry with a non-zero quantity is appended. Then `totalItems` differs from the merged total, because the appended entry is still counted. |
| CartPage.EmptyViewIffNoWellFormed | src/pages/Cart.tsx:53 | The empty-cart view is shown exactly when no entry is well formed. |
| Luhn.Checksum | src/utilities/validation.ts:14-29 | The right-to-left loop computes the Luhn sum, where every second digit from the right is doubled and reduced by 9 when it exceeds 9. |
| Luhn.CheckDigitCompletes | src/utilities/validation.ts:31 | Exactly one of the ten digits, the check digit, completes a payload to a valid number. |
| Luhn.DetectsSingleDigitError | src/utilities/validation.ts:31 | Two numbers that differ in a single digit are never both valid. |
| Validation.ValidateCardNumber | src/utilities/validation.ts:10-32 | Accepts exactly the inputs that are 13 to 19 ASCII digits after white space is removed and that pass the Luhn check. |
| Validation.EmailMatchesPattern | src/utilities/validation.ts:4 | The decision accepts a value exactly when the regular expression matches it. The decision is: no white space, one `@`, a non-empty local part, and a `.` inside the domain. |
| Validation.ExpiryByMonthCount | src/utilities/validation.ts:40-56 | A date is accepted exactly when it has the `MM/YY` shape with a month from 01 to 12, and, counted in months, it is not before the current month. The current month itself is accepted. |
| Validation.CvvMatchesPattern | src/utilities/validation.ts:35-37 | `validateCVV` accepts exactly three or four ASCII digits: three digits followed by at most one more, as the regular expression reads. |
| Validation.ZipMatchesPattern | src/utilities/validation.ts:59-61 | `validateZipCode` accepts exactly five ASCII digits, optionally followed by a dash and four more digits, as the regular expression reads. |
| Validation.FieldErrorNone | src/utilities/validation.ts:66-141 | A checked field gets no message exactly when its format or length rule holds. The country only needs to be non-blank. |
| Validation.ValidateCheckoutForm | src/utilities/validation.ts:63-144 | `general` is never set. Every key names one of the thirteen checked fields, so the check boxes and the special instructions are never checked. |
| Validation.ValidateCheckoutFormMessages | src/utilities/validation.ts:66-141 | A blank field gets its "required" message. A non-blank field other than the country gets a message exactly when its rule fails. The country gets one exactly when it is blank. |
| Validation.FieldErrorNonEmpty | src/utilities/validation.ts:66-141 | Every message the form check sets is a non-empty string. |
| Validation.AllFieldsPassIff | src/utilities/validation.ts:63-144 | No field has a message exactly when every field rule passes. |
| Validation.ValidateCheckoutFormEmptyIff | src/utilities/validation.ts:63-144 | The error object is empty exactly when the whole form is valid. |
| Formatting.GroupsStripped | src/utilities/validation.ts:149-150 | Removing the separators from the four-character groups gives back the grouped characters. |
| Formatting.GroupsLength | src/utilities/validation.ts:149-150 | Grouping n characters adds exactly (n - 1) / 4 spaces. |
| Formatting.FormatCardNumber | src/utilities/validation.ts:147-151 | The result has at most 19 characters. |
| Formatting.FormatCardNumberGroups | src/utilities/validation.ts:147-151 | The result is the first 16 non-space characters of the input, in groups of four separated by single spaces. |
| Formatting.FormatCardNumberDigits | src/utilities/validation.ts:147-151 | With its spaces removed, the result is the first 16 non-space characters of the input. |
| Formatting.FormatCardNumberIdempotent | src/utilities/validation.ts:147-151 | Formatting a formatted card number changes nothing. |
| Formatting.FormatCardNumberValidity | src/utilities/validation.ts:147-151 | For inputs of at most 16 non-space characters, formatting keeps the card check's verdict. A valid formatted number has 13 to 16 digits. |
| Formatting.FormatExpiryDate | src/utilities/validation.ts:154-160 | The result has at most 5 characters. |
| Formatting.FormatExpiryDateDigits | src/utilities/validation.ts:154-160 | The digits of the result are the first four digits of the input. |
| Formatting.FormatExpiryDateIdempotent | src/utilities/validation.ts:154-160 | Formatting a formatted expiry date changes nothing. |
| Formatting.FormatExpiryDateShape | src/utilities/validation.ts:154-160 | The result has the `MM/YY` shape exactly when the input has at least four digits and the first two name a month. |
| Formatting.FormatExpiryDateFixes | src/utilities/validation.ts:154-160 | A value already in the `MM/YY` shape is left as it is. |
| Formatting.FormatPhoneNumber | src/utilities/validation.ts:163-171 | The result has at most 14 characters. |
| Formatting.FormatPhoneNumberDigits | src/utilities/validation.ts:163-171 | The digits of the result are the first ten digits of the input. |
| Formatting.FormatPhoneNumberIdempotent | src/utilities/validation.ts:163-171 | Formatting a formatted phone number changes nothing. |
| Formatting.FormatPhoneNumberCleaned | src/utilities/validation.ts:87 | The phone check's clean-up of a formatted number yields exactly the first ten input digits. |
| Formatting.FormatPhoneNumberValidity | src/utilities/validation.ts:7 | A formatted number passes the phone check exactly when the input has a digit and the first digit is not 0. |
| Checkout.StepErrors | src/pages/Checkout.tsx:112-133 | Keys only name fields of the step, and `general` is never set. |
| Checkout.ValidateStepIff | src/pages/Checkout.tsx:112-136 | Step 1 passes exactly when the nine shipping fields are non-blank, and step 2 exactly when the four payment fields are. Any other step passes. |
| Checkout.FieldPassesStep | src/pages/Checkout.tsx:115-131 | A field the full-form check leaves without a message is not blank. |
| Checkout.ValidFormPassesSteps | src/pages/Checkout.tsx:115-131 | A form the full-form check accepts passes steps 1 and 2. |
| Checkout.HandleNext | src/pages/Checkout.tsx:138-142 | The form is unchanged and the error map becomes the step's errors. |
| Checkout.HandleNextAdvances | src/pages/Checkout.tsx:138-142 | The step stays in 1..3. It rises by exactly one when the step passes and is below 3; otherwise it stays where it is. |
| Checkout.HandlePrevious | src/pages/Checkout.tsx:144-146 | Only the step changes. |
| Checkout.HandlePreviousRetreats | src/pages/Checkout.tsx:144-146 | The step goes back by one and never below 1. Going back and then on to a passing step returns to the start. |
| Checkout.Steps | src/pages/Checkout.tsx:77-81 | There are three steps. |
| Checkout.StepsFlags | src/pages/Checkout.tsx:77-81 | Step k is active exactly when the current step is k, and completed exactly when the current step is past k. For a current step in 1..3 exactly one step is active. |
| Checkout.HandleInputChange | src/pages/Checkout.tsx:83-110 | The edited input takes the formatted value or the checked state, and no other input changes. Only the edited field's message can disappear: it stays exactly when it was present and empty. A checkbox edit leaves the messages alone. |
| Checkout.FormattedIdempotent | src/pages/Checkout.tsx:87-96 | Formatting a stored value again leaves it as it is. |
| Checkout.EditClearsMessage | src/pages/Checkout.tsx:103-109 | On a page whose messages are all non-empty, editing a text field clears that field's message. |
| Checkout.StepKeepsMessagesSet | src/pages/Checkout.tsx:83-182 | No action puts an empty message on the page: an edit only removes messages, the step check and the full-form check set non-empty ones, and a failed payment sets one non-empty general message. |
| Checkout.RunKeepsMessagesSet | src/pages/Checkout.tsx:83-182 | Any sequence of edits, button presses and submissions keeps every message non-empty. |
| Checkout.SessionEditClearsMessage | src/pages/Checkout.tsx:103-109 | In every session from the initial page, whatever checks, submissions and edits came before, editing a text field clears its message. |
| Checkout.InputChangeStable | src/pages/Checkout.tsx:83-101 | Sending back the value an input displays changes no field. |
| Checkout.HandleSubmit | src/pages/Checkout.tsx:148-182 | A blocked submission stores the full-form errors. A failed payment leaves only a `general` message. A successful one changes nothing on the page. |
| Checkout.HandleSubmitGate | src/pages/Checkout.tsx:148-155 | Submission is blocked exactly when the form is invalid, and then the error map is not empty. It succeeds exactly when the form is valid and the payment is approved. |
| Checkout.HandleSubmitFailure | src/pages/Checkout.tsx:174-178 | A failed payment removes every field message and leaves one non-empty general message. |
| Checkout.RendersFormIffCartNonEmpty | src/pages/Checkout.tsx:184-186 | On a cart of positive lines, the page renders exactly when the cart has a line. |
| Checkout.RunKeepsStepInRange | src/pages/Checkout.tsx:138-182 | No sequence of edits, button presses and submissions takes the step out of 1..3. |
| Checkout.NextToReviewNeedsPayment | src/pages/Checkout.tsx:126-142 | Going from payment to review requires the four payment fields to be filled in. |
| Radix.ToBase | src/pages/ProductDetail.tsx:16 | `Number#toString` writes at least one digit, all lower-case, with no leading zero. |
| Radix.ToBaseValue | src/pages/ProductDetail.tsx:16 | The digits written for a number have that number as their value. |
| Radix.ToBaseOfValue | src/pages/ProductDetail.tsx:16 | A lower-case digit string without a leading zero is the text written for its own value. |
| Radix.PaddedToBaseOfValue | src/pages/ProductDetail.tsx:16 | Writing the value of a lower-case digit string and padding it with zeros to that string's length gives the string back. |
| Radix.ToBaseLength | src/pages/ProductDetail.tsx:16 | A value needs more than n digits exactly when it is at least r to the power n. |
| Radix.DecimalRoundTrip | src/pages/ProductDetail.tsx:16 | `parseInt` of the decimal text of any integer gives the integer back. |
| Radix.ParseHexDigits | src/components/AnimatedStoreItem.tsx:24 | `parseInt(s, 16)` of lower-case hexadecimal digits is their value. |
| ProductRoute.RoutePrefix | src/components/AnimatedStoreItem.tsx:24 | The route part of an id has at most eight characters and no dash. |
| ProductRoute.FindProduct | src/pages/ProductDetail.tsx:17 | A product is found exactly when some catalog product's prefix is the key. The one found is in the catalog and has that prefix. |
| ProductRoute.FindIndex | src/pages/ProductDetail.tsx:17 | The first catalog product whose prefix is the key. |
| ProductRoute.RouteRoundTrip | src/pages/ProductDetail.tsx:16-17 | A product's prefix comes back from its link exactly when it is eight lower-case hexadecimal digits. |
| ProductRoute.LinkFindsProduct | src/pages/ProductDetail.tsx:16-17 | Following the link of a product with such a prefix finds a product with that prefix. It finds the product itself when no other product shares the prefix. |
| ProductRoute.LargeValuesNotFound | src/pages/ProductDetail.tsx:16-17 | A parameter whose value is 16 to the power 8 or more never finds a product. |
| ProductRoute.DisplayedQuantityAsWrittenIsZero | src/pages/ProductDetail.tsx:19 | As written, the displayed quantity is 0 whatever the cart holds. |
| ProductRoute.DisplayedQuantity | src/pages/ProductDetail.tsx:19 | Without a parameter the displayed quantity is 0. |
| ProductRoute.DisplayedQuantityShowsCart | src/pages/ProductDetail.tsx:17-19 | Reached through its link, a product shows the cart's quantity for it. |
| ProductRoute.AsWrittenMissesCartQuantity | src/pages/ProductDetail.tsx:19 | Whenever the cart holds units of the product, the page as written shows a different number from the intended one. |

## Left out

- Persistence: the cart is read and written through `useLocalStorage`, which is not part of this model. The list is the state, and each operation's result is what would be written.
- React machinery: effects, memoisation, rendering, the cart drawer's `isOpen` flag and navigation calls. The redirect of an empty cart is modelled only as the render guard.
- Money: the order summary (8% tax, shipping, gift wrap), the price totals and currency formatting compute in floating point and are not modelled. `Product.price` is carried but never used.
- Simulated payment: the two-second timer, `Math.random` and the `Date.now` order number. The payment's result is a parameter of `Checkout.HandleSubmit`, and `isSubmitting` is not modelled.
- The product fetch, the products context and the theme manager are I/O.
- Presentation-only code: animation delays, the static pages, the navigation bar, routing and build configuration.
- The cart calls at `src/pages/ProductDetail.tsx:114`, 124, 130 and 135 pass a number where a product or a string id is declared, as do the store and cart item components. No cart behaviour is built on those calls.
- Cart entries that have neither a `product` nor a numeric `id` are left out. `consolidateItems` would throw on them.
- Quantities are modelled as integers. In the source they are JavaScript numbers read back from storage, so a corrupt store could hold a fraction, `NaN` or a string. A string quantity would concatenate instead of adding in the merge at `src/context/ShoppingCartContext.tsx:46`, and `|| 0` at line 83 would turn `NaN` into 0. Precision is lost above 2^53. None of these is modelled. Every line the cart operations themselves create holds a whole number from 1 upward.
- Strings are sequences of Unicode scalar values, not UTF-16 code units. Lengths differ only for characters outside the Basic Multilingual Plane.
- Radix.ParseInt: does not model the loss of precision above 2^53 or the result `Infinity` for very long digit runs. It returns the exact integer.
- Radix.ToBase: covers only radices 10 and 16, the two the route code uses.
- Radix.NumberToString: covers only radices 10 and 16 and integer values. Fractions and exponent notation do not arise on the route.
- Checkout.HandleInputChange: clearing a message sets the key to `undefined` in the source. The model removes the key, which every reader of the map treats the same way.
- Route parameters are taken as already URI-decoded.

## Findings

| source | as written | input that shows it | evidently intended | confidence | as-written member | corrected member |
|---|---|---|---|---|---|---|
| src/pages/ProductDetail.tsx:19 | `getItemQuantity(parseInt(id))` compares each line's string `product.id` with a number using `===`, which never holds. | A product with id `0000abcd-...` and 2 units in the cart, visited at `/product/43981`, shows "+ Add To Cart" instead of "2 in cart". | The page shows the cart quantity of the product it found. | not executed | ProductRoute.DisplayedQuantityAsWrittenIsZero | ProductRoute.DisplayedQuantityShowsCart |

=== FILE: cart_page.dfy ===
/**
 * The cart page's view of the stored entries: malformed entries are filtered out and
 * the rest merged by product id; the item count is summed over every entry.
 */
module CartPage {
  import opened CartStore

  /** `item.product && item.product.id`: an entry with an embedded product whose id is a
      non-empty string. Legacy entries carry no `product` and fail the test. */
  predicate WellFormed(e: StoredEntry) {
    e.Current? && e.line.product.id != ""
  }

  /** The `.filter` step: the lines of the well-formed entries, in order. */
  function WellFormedLines(es: seq<StoredEntry>): (r: seq<CartLine>)
    ensures |r| <= |es|
    ensures forall k :: 0 <= k < |r| ==> r[k].product.id != ""
  {
    if es == [] then []
    else
      var rest := WellFormedLines(es[..|es| - 1]);
      var e := es[|es| - 1];
      if WellFormed(e) then rest + [e.line] else rest
  }

  /** `consolidatedCartItems`: the page repeats `consolidateItems`'s reduce on the
      filtered entries, so the merged list is `Consolidate` of the well-formed lines. */
  function ConsolidatedCartItems(es: seq<StoredEntry>): (r: seq<CartLine>)
    ensures ConsolidationOf(r, WellFormedLines(es))
    ensures forall k :: 0 <= k < |r| ==> r[k].product.id != ""
  {
    var lines := WellFormedLines(es);
    var r := Consolidate(lines);
    ConsolidateSpec(lines);
    NoEmptyId(r, lines);
    r
  }

  lemma NoEmptyId(r: seq<CartLine>, lines: seq<CartLine>)
    requires Ids(r) == Ids(lines)
    requires forall k :: 0 <= k < |lines| ==> lines[k].product.id != ""
    ensures forall k :: 0 <= k < |r| ==> r[k].product.id != ""
  {
    forall k | 0 <= k < |r| ensures r[k].product.id != "" {
      assert r[k].product.id in Ids(lines);
    }
  }

  /** `quantity` of any stored entry, whatever its shape. */
  function EntryQuantity(e: StoredEntry): int {
    match e
    case Current(line) => line.quantity
    case Legacy(_, q) => q
  }

  /** `totalItems`: the quantities of all entries, malformed ones included. */
  function TotalItems(es: seq<StoredEntry>): int {
    if es == [] then 0 else TotalItems(es[..|es| - 1]) + EntryQuantity(es[|es| - 1])
  }

  /** When every entry is well formed, the item count equals the summed quantity of
      the merged list. */
  lemma {:induction false} TotalItemsMatchesMerged(es: seq<StoredEntry>)
    requires forall k :: 0 <= k < |es| ==> WellFormed(es[k])
    ensures TotalItems(es) == Total(ConsolidatedCartItems(es))
  {
    TotalItemsWellFormed(es);
    ConsolidateSpec(WellFormedLines(es));
  }

  /** When every entry is well formed, the item count is the total of the filtered
      lines. */
  lemma {:induction false} TotalItemsWellFormed(es: seq<StoredEntry>)
    requires forall k :: 0 <= k < |es| ==> WellFormed(es[k])
    ensures TotalItems(es) == Total(WellFormedLines(es))
  {
    if es != [] {
      var p := es[..|es| - 1];
      TotalItemsWellFormed(p);
      var t := WellFormedLines(es);
      assert t == WellFormedLines(p) + [es[|es| - 1].line];
      assert t[..|t| - 1] == WellFormedLines(p);
    }
  }

  /** The summed quantity of the entries the filter drops. */
  function MalformedQuantity(es: seq<StoredEntry>): int {
    if es == [] then 0
    else
      var e := es[|es| - 1];
      MalformedQuantity(es[..|es| - 1]) + (if WellFormed(e) then 0 else EntryQuantity(e))
  }

  /** The item count splits into the total of the filtered lines and the quantities of
      the entries the filter drops. */
  lemma {:induction false} TotalItemsSplit(es: seq<StoredEntry>)
    ensures TotalItems(es) == Total(WellFormedLines(es)) + MalformedQuantity(es)
  {
    if es != [] {
      var p := es[..|es| - 1];
      var e := es[|es| - 1];
      TotalItemsSplit(p);
      var t := WellFormedLines(es);
      if WellFormed(e) {
        assert t == WellFormedLines(p) + [e.line];
        assert t[..|t| - 1] == WellFormedLines(p);
      }
    }
  }

  /** On any list of entries, the item count is the merged list's total plus the
      quantities of the malformed entries, which the count includes and the merged
      list does not. */
  lemma TotalItemsExact(es: seq<StoredEntry>)
    ensures TotalItems(es) == Total(ConsolidatedCartItems(es)) + MalformedQuantity(es)
  {
    TotalItemsSplit(es);
    ConsolidateSpec(WellFormedLines(es));
  }

  /** A malformed entry with a non-zero quantity makes the item count differ from the
      merged list's total: the count still includes it. */
  lemma TotalItemsCountsMalformed(es: seq<StoredEntry>, e: StoredEntry)
    requires forall k :: 0 <= k < |es| ==> WellFormed(es[k])
    requires !WellFormed(e) && EntryQuantity(e) != 0
    ensures TotalItems(es + [e]) != Total(ConsolidatedCartItems(es + [e]))
  {
    var all := es + [e];
    assert all[..|all| - 1] == es && all[|all| - 1] == e;
    assert TotalItems(all) == TotalItems(es) + EntryQuantity(e);
    assert WellFormedLines(all) == WellFormedLines(es);
    TotalItemsMatchesMerged(es);
  }

  /** No line survives the filter exactly when no entry is well formed. */
  lemma {:induction false} WellFormedLinesEmpty(es: seq<StoredEntry>)
    ensures WellFormedLines(es) == [] <==> forall k :: 0 <= k < |es| ==> !WellFormed(es[k])
  {
    if es != [] {
      var p := es[..|es| - 1];
      var e := es[|es| - 1];
      WellFormedLinesEmpty(p);
      if WellFormed(e) {
        assert |WellFormedLines(es)| == |WellFormedLines(p)| + 1;
      } else {
        assert WellFormedLines(es) == WellFormedLines(p);
        assert forall k :: 0 <= k < |p| ==> p[k] == es[k];
      }
    }
  }

  /** Consolidation gives the empty list exactly for the empty list. */
  lemma ConsolidateEmpty(lines: seq<CartLine>)
    ensures Consolidate(lines) == [] <==> lines == []
  {
    var r := Consolidate(lines);
    ConsolidateSpec(lines);
    if lines != [] {
      assert lines[0].product.id in Ids(lines);
      assert Ids(r) != {};
    }
  }

  /** The empty-cart view is shown exactly when no entry is well formed. */
  lemma EmptyViewIffNoWellFormed(es: seq<StoredEntry>)
    ensures ConsolidatedCartItems(es) == [] <==> forall k :: 0 <= k < |es| ==> !WellFormed(es[k])
  {
    WellFormedLinesEmpty(es);
    ConsolidateEmpty(WellFormedLines(es));
  }
}

=== FILE: cart_store.dfy ===
/**
 * The shopping-cart state container: a list of `{product, quantity}` lines that is
 * consolidated, queried and edited by pure list functions. The list itself is the
 * state; each operation's result is what the store writes back.
 */
module CartStore {

  /** A catalog record as embedded in a cart line. Only `id` matters to the cart; the
      other fields are the snapshot taken when the line was created. */
  datatype Product = Product(id: string, name: string, price: real, image: string)

  /** Quantities are unbounded integers: stored data may be corrupt, so "at least 1"
      is an invariant the operations keep, not a property of the type. */
  datatype CartLine = CartLine(product: Product, quantity: int)

  /** One persisted entry: the current `{product, quantity}` shape, or the retired
      shape keyed by a numeric `id` field. */
  datatype StoredEntry = Current(line: CartLine) | Legacy(id: int, quantity: int)

  /** The set of product ids that have a line. */
  function Ids(s: seq<CartLine>): set<string> {
    set i | 0 <= i < |s| :: s[i].product.id
  }

  /** At most one line per product id. */
  predicate UniqueIds(s: seq<CartLine>) {
    forall i, j :: 0 <= i < j < |s| ==> s[i].product.id != s[j].product.id
  }

  /** Every line holds at least one unit. */
  predicate Positive(s: seq<CartLine>) {
    forall i :: 0 <= i < |s| ==> s[i].quantity >= 1
  }

  /** `s.find(line => line.product.id === id)` as an index: the first line carrying
      `id`, or `|s|` when there is none. */
  function Find(s: seq<CartLine>, id: string): (i: nat)
    ensures i <= |s|
    ensures i < |s| ==> s[i].product.id == id
    ensures forall k :: 0 <= k < i ==> s[k].product.id != id
    ensures i < |s| <==> id in Ids(s)
  {
    if s == [] then 0
    else if s[0].product.id == id then 0
    else
      var j := Find(s[1..], id);
      assert id in Ids(s[1..]) <==> id in Ids(s) by {
        if id in Ids(s) {
          var k :| 0 <= k < |s| && s[k].product.id == id;
          assert s[1..][k - 1] == s[k];
        }
      }
      1 + j
  }

  /** `cartQuantity`: the sum of the quantities of all lines. */
  function Total(s: seq<CartLine>): int {
    if s == [] then 0 else Total(s[..|s| - 1]) + s[|s| - 1].quantity
  }

  /** The sum of the quantities of the lines carrying `id` (0 when there is none). */
  function QuantityOf(s: seq<CartLine>, id: string): int {
    if s == [] then 0
    else QuantityOf(s[..|s| - 1], id) + (if s[|s| - 1].product.id == id then s[|s| - 1].quantity else 0)
  }

  // ---------------------------------------------------------------------------
  // Facts about appending and updating lines

  lemma IdsAppend(p: seq<CartLine>, x: CartLine)
    ensures Ids(p + [x]) == Ids(p) + {x.product.id}
  {
    var s := p + [x];
    forall id | id in Ids(s) ensures id in Ids(p) + {x.product.id} {
      var k :| 0 <= k < |s| && s[k].product.id == id;
      if k < |p| {
        assert p[k] == s[k];
      }
    }
    forall id | id in Ids(p) ensures id in Ids(s) {
      var k :| 0 <= k < |p| && p[k].product.id == id;
      assert s[k] == p[k];
    }
    assert s[|p|] == x;
  }

  lemma TotalAppend(a: seq<CartLine>, b: seq<CartLine>)
    ensures Total(a + b) == Total(a) + Total(b)
  {
    if b != [] {
      assert (a + b)[..|a + b| - 1] == a + b[..|b| - 1];
      TotalAppend(a, b[..|b| - 1]);
    } else {
      assert a + b == a;
    }
  }

  lemma QuantityOfAppend(a: seq<CartLine>, b: seq<CartLine>, id: string)
    ensures QuantityOf(a + b, id) == QuantityOf(a, id) + QuantityOf(b, id)
  {
    if b != [] {
      assert (a + b)[..|a + b| - 1] == a + b[..|b| - 1];
      QuantityOfAppend(a, b[..|b| - 1], id);
    } else {
      assert a + b == a;
    }
  }

  lemma {:induction false} QuantityOfAbsent(s: seq<CartLine>, id: string)
    requires id !in Ids(s)
    ensures QuantityOf(s, id) == 0
  {
    if s != [] {
      var p := s[..|s| - 1];
      IdsAppend(p, s[|s| - 1]);
      assert p + [s[|s| - 1]] == s;
      QuantityOfAbsent(p, id);
    }
  }

  /** The quantity of a present id on a list of positive lines is positive. */
  lemma {:induction false} QuantityOfPositive(s: seq<CartLine>, id: string)
    requires Positive(s) && id in Ids(s)
    ensures QuantityOf(s, id) >= 1
  {
    var p := s[..|s| - 1];
    var x := s[|s| - 1];
    assert p + [x] == s;
    IdsAppend(p, x);
    if id in Ids(p) {
      QuantityOfPositive(p, id);
    } else {
      QuantityOfAbsent(p, id);
    }
  }

  /** On a list with unique ids, the quantity of an id is that of its one line. */
  lemma {:induction false} QuantityOfUnique(s: seq<CartLine>, k: nat)
    requires UniqueIds(s) && k < |s|
    ensures QuantityOf(s, s[k].product.id) == s[k].quantity
  {
    var p := s[..|s| - 1];
    var x := s[|s| - 1];
    assert p + [x] == s;
    if k == |s| - 1 {
      assert s[k].product.id !in Ids(p);
      QuantityOfAbsent(p, s[k].product.id);
    } else {
      assert p[k] == s[k];
      QuantityOfUnique(p, k);
    }
  }

  /** Adding `d` to the quantity of line `i` adds `d` to that id's quantity and to the
      total, and changes nothing else. */
  lemma {:induction false} UpdateQuantity(s: seq<CartLine>, i: nat, d: int)
    requires i < |s|
    ensures var t := s[i := s[i].(quantity := s[i].quantity + d)];
      && Total(t) == Total(s) + d
      && Ids(t) == Ids(s)
      && forall id :: QuantityOf(t, id) == QuantityOf(s, id) + (if id == s[i].product.id then d else 0)
  {
    var t := s[i := s[i].(quantity := s[i].quantity + d)];
    var p := s[..|s| - 1];
    var x := s[|s| - 1];
    assert p + [x] == s;
    IdsAppend(p, x);
    if i == |s| - 1 {
      assert t == p + [x.(quantity := x.quantity + d)];
      IdsAppend(p, x.(quantity := x.quantity + d));
    } else {
      var u := p[i := p[i].(quantity := p[i].quantity + d)];
      assert t == u + [x];
      UpdateQuantity(p, i, d);
      IdsAppend(u, x);
    }
  }

  /** Adding `d` to the quantity of line `i` adds `d` to the total. */
  lemma {:induction false} UpdateTotal(s: seq<CartLine>, i: nat, d: int)
    requires i < |s|
    ensures Total(s[i := s[i].(quantity := s[i].quantity + d)]) == Total(s) + d
  {
    var t := s[i := s[i].(quantity := s[i].quantity + d)];
    var p := s[..|s| - 1];
    assert t[..|t| - 1] == if i == |s| - 1 then p else p[i := p[i].(quantity := p[i].quantity + d)];
    if i < |s| - 1 {
      UpdateTotal(p, i, d);
    }
  }

  /** `find` on a list extended by one line. */
  lemma {:induction false} FindAppend(p: seq<CartLine>, x: CartLine, id: string)
    ensures Find(p + [x], id) ==
      if Find(p, id) < |p| then Find(p, id) else if x.product.id == id then |p| else |p| + 1
  {
    if p != [] {
      assert (p + [x])[1..] == p[1..] + [x];
      FindAppend(p[1..], x, id);
    }
  }

  // ---------------------------------------------------------------------------
  // consolidateItems

  /** Each line of `r` holds the summed quantity of its id in `s`. */
  ghost predicate SummedQuantities(r: seq<CartLine>, s: seq<CartLine>) {
    forall k :: 0 <= k < |r| ==> r[k].quantity == QuantityOf(s, r[k].product.id)
  }

  /** Each line of `r` holds the product snapshot of its id's first line in `s`. */
  ghost predicate FirstSnapshots(r: seq<CartLine>, s: seq<CartLine>) {
    forall k :: 0 <= k < |r| ==>
      Find(s, r[k].product.id) < |s| && r[k].product == s[Find(s, r[k].product.id)].product
  }

  /** The lines of `r` are ordered by the first occurrence of their ids in `s`. */
  ghost predicate FirstOccurrenceOrder(r: seq<CartLine>, s: seq<CartLine>) {
    forall j, k :: 0 <= j < k < |r| ==> Find(s, r[j].product.id) < Find(s, r[k].product.id)
  }

  /** The reference characterisation of consolidation: `r` has one line per distinct id
      of `s`, ordered by each id's first occurrence in `s`; each line carries the
      product snapshot of that first occurrence and the summed quantity of the id. */
  ghost predicate ConsolidationOf(r: seq<CartLine>, s: seq<CartLine>) {
    && UniqueIds(r)
    && Ids(r) == Ids(s)
    && SummedQuantities(r, s)
    && FirstSnapshots(r, s)
    && FirstOccurrenceOrder(r, s)
  }

  /** One step of the `reduce` in `consolidateItems`: fold `item` into `acc`, adding its
      quantity to the first line with the same id or appending a copy of it. */
  function Merge(acc: seq<CartLine>, item: CartLine): seq<CartLine> {
    var i := Find(acc, item.product.id);
    if i < |acc| then acc[i := acc[i].(quantity := acc[i].quantity + item.quantity)]
    else acc + [item]
  }

  /** Ids already present in `p` are found at the same place in `p + [x]`. */
  lemma FindKept(p: seq<CartLine>, x: CartLine)
    ensures forall id :: id in Ids(p) ==> Find(p + [x], id) == Find(p, id)
  {
    forall id | id in Ids(p) ensures Find(p + [x], id) == Find(p, id) {
      FindAppend(p, x, id);
    }
  }

  /** Adding to the quantity of one line keeps every line's product. */
  lemma UpdateKeepsProducts(c: seq<CartLine>, i: nat, d: int)
    requires i < |c|
    ensures var r := c[i := c[i].(quantity := c[i].quantity + d)];
      forall k :: 0 <= k < |r| ==> r[k].product == c[k].product
  {
  }

  /** Changing one line's quantity keeps the ids unique, and keeps every line positive
      when the changed line stays positive. */
  lemma UpdateLineShape(c: seq<CartLine>, i: nat, d: int)
    requires i < |c| && UniqueIds(c)
    ensures var t := c[i := c[i].(quantity := c[i].quantity + d)];
      && UniqueIds(t)
      && (Positive(c) && c[i].quantity + d >= 1 ==> Positive(t))
  {
    var t := c[i := c[i].(quantity := c[i].quantity + d)];
    forall j, k | 0 <= j < k < |t| ensures t[j].product.id != t[k].product.id {
      assert t[j].product == c[j].product && t[k].product == c[k].product;
    }
  }

  /** Merging an item whose id is already present: the sums. */
  lemma {:induction false} MergePresentSums(c: seq<CartLine>, p: seq<CartLine>, x: CartLine)
    requires UniqueIds(c) && Ids(c) == Ids(p) && SummedQuantities(c, p)
    requires x.product.id in Ids(p)
    ensures SummedQuantities(Merge(c, x), p + [x])
  {
    var s := p + [x];
    var r := Merge(c, x);
    var i := Find(c, x.product.id);
    assert r == c[i := c[i].(quantity := c[i].quantity + x.quantity)];
    assert s[..|s| - 1] == p;
    forall k | 0 <= k < |r|
      ensures r[k].quantity == QuantityOf(s, r[k].product.id)
    {
      if k != i {
        assert r[k] == c[k];
      }
    }
  }

  /** Merging an item whose id is already present: the snapshots and the order. */
  lemma {:induction false} MergePresentPlaces(c: seq<CartLine>, p: seq<CartLine>, x: CartLine)
    requires Ids(c) == Ids(p) && FirstSnapshots(c, p) && FirstOccurrenceOrder(c, p)
    requires x.product.id in Ids(p)
    ensures FirstSnapshots(Merge(c, x), p + [x]) && FirstOccurrenceOrder(Merge(c, x), p + [x])
  {
    var s := p + [x];
    var r := Merge(c, x);
    var i := Find(c, x.product.id);
    assert r == c[i := c[i].(quantity := c[i].quantity + x.quantity)];
    UpdateKeepsProducts(c, i, x.quantity);
    FindKept(p, x);
    forall k | 0 <= k < |r|
      ensures Find(s, r[k].product.id) == Find(p, c[k].product.id)
    {
      assert c[k].product.id in Ids(c);
    }
    forall k | 0 <= k < |r|
      ensures Find(s, r[k].product.id) < |s| && r[k].product == s[Find(s, r[k].product.id)].product
    {
      assert s[Find(p, c[k].product.id)] == p[Find(p, c[k].product.id)];
    }
  }

  /** Merging an item whose id is already present: the ids and the total. */
  lemma {:induction false} MergePresentIds(c: seq<CartLine>, p: seq<CartLine>, x: CartLine)
    requires UniqueIds(c) && Ids(c) == Ids(p) && x.product.id in Ids(p)
    ensures UniqueIds(Merge(c, x)) && Ids(Merge(c, x)) == Ids(p + [x])
    ensures |Merge(c, x)| == |c| && Total(Merge(c, x)) == Total(c) + x.quantity
  {
    var i := Find(c, x.product.id);
    IdsAppend(p, x);
    UpdateQuantity(c, i, x.quantity);
    UpdateKeepsProducts(c, i, x.quantity);
  }

  /** Merging an item whose id is already present. */
  lemma {:induction false} MergePresent(c: seq<CartLine>, p: seq<CartLine>, x: CartLine)
    requires ConsolidationOf(c, p) && x.product.id in Ids(p)
    ensures ConsolidationOf(Merge(c, x), p + [x])
  {
    MergePresentIds(c, p, x);
    MergePresentSums(c, p, x);
    MergePresentPlaces(c, p, x);
  }

  /** Merging an item whose id is new: the sums and the snapshots. */
  lemma {:induction false} MergeAbsentLines(c: seq<CartLine>, p: seq<CartLine>, x: CartLine)
    requires Ids(c) == Ids(p) && SummedQuantities(c, p) && FirstSnapshots(c, p)
    requires x.product.id !in Ids(p)
    ensures SummedQuantities(Merge(c, x), p + [x]) && FirstSnapshots(Merge(c, x), p + [x])
  {
    var s := p + [x];
    var r := Merge(c, x);
    assert r == c + [x];
    assert s[..|s| - 1] == p;
    FindKept(p, x);
    FindAppend(p, x, x.product.id);
    QuantityOfAbsent(p, x.product.id);
    forall k | 0 <= k < |r|
      ensures r[k].quantity == QuantityOf(s, r[k].product.id)
      ensures Find(s, r[k].product.id) < |s| && r[k].product == s[Find(s, r[k].product.id)].product
    {
      if k < |c| {
        assert r[k] == c[k];
        assert c[k].product.id in Ids(c);
      }
    }
  }

  /** Merging an item whose id is new: uniqueness and the order. */
  lemma {:induction false} MergeAbsentOrder(c: seq<CartLine>, p: seq<CartLine>, x: CartLine)
    requires UniqueIds(c) && Ids(c) == Ids(p) && FirstOccurrenceOrder(c, p)
    requires x.product.id !in Ids(p)
    ensures UniqueIds(Merge(c, x)) && FirstOccurrenceOrder(Merge(c, x), p + [x])
  {
    var s := p + [x];
    var r := Merge(c, x);
    assert r == c + [x];
    FindKept(p, x);
    FindAppend(p, x, x.product.id);
    forall j, k | 0 <= j < k < |r|
      ensures r[j].product.id != r[k].product.id
      ensures Find(s, r[j].product.id) < Find(s, r[k].product.id)
    {
      assert r[j] == c[j];
      assert c[j].product.id in Ids(c);
      if k < |c| {
        assert r[k] == c[k];
        assert c[k].product.id in Ids(c);
      }
    }
  }

  /** Merging an item whose id is new appends it. */
  lemma {:induction false} MergeAbsent(c: seq<CartLine>, p: seq<CartLine>, x: CartLine)
    requires ConsolidationOf(c, p) && x.product.id !in Ids(p)
    ensures ConsolidationOf(Merge(c, x), p + [x])
  {
    IdsAppend(p, x);
    IdsAppend(c, x);
    MergeAbsentLines(c, p, x);
    MergeAbsentOrder(c, p, x);
  }

  lemma {:induction false} MergeStep(c: seq<CartLine>, p: seq<CartLine>, x: CartLine, s: seq<CartLine>)
    requires s == p + [x] && ConsolidationOf(c, p)
    ensures ConsolidationOf(Merge(c, x), s)
  {
    if x.product.id in Ids(p) {
      MergePresent(c, p, x);
    } else {
      MergeAbsent(c, p, x);
    }
  }

  /** Merging keeps the length when the id is present and adds one line otherwise. */
  lemma MergeLength(c: seq<CartLine>, x: CartLine)
    ensures |Merge(c, x)| == if x.product.id in Ids(c) then |c| else |c| + 1
  {
    var i := Find(c, x.product.id);
    assert i < |c| <==> x.product.id in Ids(c);
  }

  /** Merging adds the item's quantity to the total. */
  lemma MergeTotal(c: seq<CartLine>, x: CartLine)
    ensures Total(Merge(c, x)) == Total(c) + x.quantity
  {
    var i := Find(c, x.product.id);
    if i < |c| {
      UpdateTotal(c, i, x.quantity);
    } else {
      var t := c + [x];
      assert Merge(c, x) == t;
      assert t[..|t| - 1] == c;
    }
  }

  /** One step of the fold keeps the consolidation, the length bound and the total. */
  lemma ConsolidateStep(c: seq<CartLine>, p: seq<CartLine>, x: CartLine, s: seq<CartLine>)
    requires s == p + [x] && ConsolidationOf(c, p)
    requires |c| <= |p| && Total(c) == Total(p)
    ensures ConsolidationOf(Merge(c, x), s)
    ensures |Merge(c, x)| <= |s| && Total(Merge(c, x)) == Total(s)
  {
    MergeStep(c, p, x, s);
    MergeLength(c, x);
    MergeTotal(c, x);
    assert s[..|s| - 1] == p;
  }

  /** `consolidateItems`: the left fold of `Merge` over the lines, starting from []. */
  function Consolidate(s: seq<CartLine>): seq<CartLine> {
    if s == [] then [] else Merge(Consolidate(s[..|s| - 1]), s[|s| - 1])
  }

  /** The fold meets the reference characterisation, is no longer than its input and
      keeps the total quantity. */
  lemma {:induction false} ConsolidateSpec(s: seq<CartLine>)
    ensures ConsolidationOf(Consolidate(s), s)
    ensures |Consolidate(s)| <= |s|
    ensures Total(Consolidate(s)) == Total(s)
  {
    if s != [] {
      var p := s[..|s| - 1];
      var x := s[|s| - 1];
      assert p + [x] == s;
      ConsolidateSpec(p);
      ConsolidateStep(Consolidate(p), p, x, s);
    }
  }

  /** Consolidating a list whose ids are already unique returns it unchanged. */
  lemma {:induction false} ConsolidateUnique(s: seq<CartLine>)
    requires UniqueIds(s)
    ensures Consolidate(s) == s
  {
    if s != [] {
      var p := s[..|s| - 1];
      var x := s[|s| - 1];
      assert p + [x] == s;
      ConsolidateUnique(p);
      IdsAppend(p, x);
      assert x.product.id !in Ids(p);
    }
  }

  /** `consolidateItems` is idempotent. */
  lemma ConsolidateIdempotent(s: seq<CartLine>)
    ensures Consolidate(Consolidate(s)) == Consolidate(s)
  {
    ConsolidateSpec(s);
    ConsolidateUnique(Consolidate(s));
  }

  /** Appending a line with a new id to a list with unique ids keeps them unique. */
  lemma UniqueAppend(p: seq<CartLine>, x: CartLine)
    requires UniqueIds(p) && x.product.id !in Ids(p)
    ensures UniqueIds(p + [x])
  {
    var s := p + [x];
    forall i, j | 0 <= i < j < |s| ensures s[i].product.id != s[j].product.id {
      assert s[i] == p[i];
      if j < |p| {
        assert s[j] == p[j];
      } else {
        assert p[i].product.id in Ids(p);
      }
    }
  }

  /** Consolidation keeps the length exactly when the ids were already unique, which is
      why the mount check can test for duplicates by comparing lengths. */
  lemma {:induction false} ConsolidateLength(s: seq<CartLine>)
    ensures |Consolidate(s)| == |s| <==> UniqueIds(s)
  {
    if UniqueIds(s) {
      ConsolidateUnique(s);
    } else if s != [] {
      var p := s[..|s| - 1];
      var x := s[|s| - 1];
      assert p + [x] == s;
      ConsolidateSpec(p);
      MergeLength(Consolidate(p), x);
      ConsolidateLength(p);
      IdsAppend(p, x);
      if UniqueIds(p) && x.product.id !in Ids(p) {
        UniqueAppend(p, x);
      }
    }
  }

  /** Consolidating positive lines gives positive lines. */
  lemma ConsolidatePositiveWhen(s: seq<CartLine>)
    ensures Positive(s) ==> Positive(Consolidate(s))
  {
    var r := Consolidate(s);
    ConsolidateSpec(s);
    if Positive(s) {
      forall k | 0 <= k < |r| ensures r[k].quantity >= 1 {
        assert r[k].product.id in Ids(r);
        QuantityOfPositive(s, r[k].product.id);
      }
    }
  }

  /** Consolidation preserves the summed quantity of every id. */
  lemma ConsolidateQuantities(s: seq<CartLine>)
    ensures forall id :: QuantityOf(Consolidate(s), id) == QuantityOf(s, id)
  {
    var c := Consolidate(s);
    ConsolidateSpec(s);
    forall id ensures QuantityOf(c, id) == QuantityOf(s, id) {
      if id in Ids(c) {
        var k := Find(c, id);
        QuantityOfUnique(c, k);
      } else {
        QuantityOfAbsent(c, id);
        QuantityOfAbsent(s, id);
      }
    }
  }

  // ---------------------------------------------------------------------------
  // Mount-time hydration

  predicate HasLegacy(stored: seq<StoredEntry>) {
    exists k :: 0 <= k < |stored| && stored[k].Legacy?
  }

  function LinesOf(stored: seq<StoredEntry>): (r: seq<CartLine>)
    requires !HasLegacy(stored)
    ensures |r| == |stored|
    ensures forall k :: 0 <= k < |r| ==> r[k] == stored[k].line
  {
    seq(|stored|, k requires 0 <= k < |stored| && stored[k].Current? => stored[k].line)
  }

  /** The cart after the mount effect, and whether the effect wrote it back. */
  datatype Hydration = Hydration(lines: seq<CartLine>, rewritten: bool)

  /** The mount effect: a cart holding any legacy entry is cleared; otherwise it is
      replaced by its consolidation when that is shorter, and kept as it is if not. */
  function Hydrate(stored: seq<StoredEntry>): (h: Hydration)
    ensures HasLegacy(stored) ==> h == Hydration([], true)
    ensures !HasLegacy(stored) ==> h.lines == Consolidate(LinesOf(stored))
    ensures !HasLegacy(stored) ==> (h.rewritten <==> !UniqueIds(LinesOf(stored)))
    ensures !HasLegacy(stored) && UniqueIds(LinesOf(stored)) ==> h.lines == LinesOf(stored)
    ensures UniqueIds(h.lines)
  {
    if HasLegacy(stored) then Hydration([], true)
    else
      var lines := LinesOf(stored);
      var unique := Consolidate(lines);
      ConsolidateSpec(lines);
      ConsolidateLength(lines);
      if |unique| != |lines| then Hydration(unique, true)
      else ConsolidateUnique(lines); Hydration(lines, false)
  }

  // ---------------------------------------------------------------------------
  // Queries

  /** `getItemQuantity(id)`: the quantity of the first line with `id`, or 0. */
  function GetItemQuantity(s: seq<CartLine>, id: string): (q: int)
    ensures id !in Ids(s) ==> q == 0
    ensures forall k :: 0 <= k < |s| && s[k].product.id == id && FirstWith(s, id, k) ==> q == s[k].quantity
    ensures UniqueIds(s) ==> q == QuantityOf(s, id)
  {
    var i := Find(s, id);
    if i < |s| then
      FirstWithIsFind(s, id);
      (if UniqueIds(s) then QuantityOfUnique(s, i); s[i].quantity else s[i].quantity)
    else
      QuantityOfAbsent(s, id); 0
  }

  /** No line before index `k` carries `id`. */
  predicate FirstWith(s: seq<CartLine>, id: string, k: nat) {
    forall j :: 0 <= j < k && j < |s| ==> s[j].product.id != id
  }

  /** The first line carrying `id` is the one `find` returns. */
  lemma FirstWithIsFind(s: seq<CartLine>, id: string)
    ensures forall k :: 0 <= k < |s| && s[k].product.id == id && FirstWith(s, id, k) ==> k == Find(s, id)
  {
    forall k | 0 <= k < |s| && s[k].product.id == id && FirstWith(s, id, k) ensures k == Find(s, id) {
      assert id in Ids(s);
    }
  }

  /** `cartQuantity` over positive lines counts at least one unit per line, so it is 0
      exactly when the cart is empty. */
  lemma {:induction false} CartQuantityPositive(s: seq<CartLine>)
    requires Positive(s)
    ensures Total(s) >= |s|
    ensures Total(s) == 0 <==> s == []
  {
    if s != [] {
      CartQuantityPositive(s[..|s| - 1]);
    }
  }

  // ---------------------------------------------------------------------------
  // Edits

  /** The `.map` of the increase/decrease handlers: add `d` to every line with `id`. */
  function Bump(s: seq<CartLine>, id: string, d: int): (r: seq<CartLine>)
    ensures |r| == |s|
    ensures forall k :: 0 <= k < |s| ==> r[k].product == s[k].product
    ensures forall k :: 0 <= k < |s| && s[k].product.id != id ==> r[k] == s[k]
  {
    seq(|s|, k requires 0 <= k < |s| =>
      if s[k].product.id == id then s[k].(quantity := s[k].quantity + d) else s[k])
  }

  /** On a list with unique ids the `.map` touches one line only. */
  lemma BumpUnique(s: seq<CartLine>, id: string, d: int)
    requires UniqueIds(s)
    ensures Find(s, id) < |s| ==>
      Bump(s, id, d) == s[Find(s, id) := s[Find(s, id)].(quantity := s[Find(s, id)].quantity + d)]
    ensures Find(s, id) == |s| ==> Bump(s, id, d) == s
  {
  }

  /** What adding one unit of `product` to `s` must achieve: ids stay unique, the id
      joins the cart, its quantity and the total grow by one, and no other id's
      quantity changes. */
  ghost predicate AddsOneUnit(r: seq<CartLine>, s: seq<CartLine>, product: Product) {
    && UniqueIds(r)
    && Ids(r) == Ids(s) + {product.id}
    && (forall id :: QuantityOf(r, id) == QuantityOf(s, id) + (if id == product.id then 1 else 0))
    && Total(r) == Total(s) + 1
    && (Positive(s) ==> Positive(r))
  }

  /** `c` holds the same units as `s`, one line per id. */
  ghost predicate SameUnits(c: seq<CartLine>, s: seq<CartLine>) {
    && UniqueIds(c)
    && Ids(c) == Ids(s)
    && (forall id :: QuantityOf(c, id) == QuantityOf(s, id))
    && Total(c) == Total(s)
    && (Positive(s) ==> Positive(c))
  }

  /** Consolidation keeps every id's units and the total, one line per id. */
  lemma ConsolidateSameUnits(s: seq<CartLine>)
    ensures SameUnits(Consolidate(s), s)
  {
    ConsolidateSpec(s);
    ConsolidateQuantities(s);
    ConsolidatePositiveWhen(s);
  }

  /** Increase when the id is absent: the fresh line goes at the end. */
  lemma IncreaseAbsent(c: seq<CartLine>, s: seq<CartLine>, product: Product)
    requires SameUnits(c, s) && product.id !in Ids(s)
    ensures AddsOneUnit(c + [CartLine(product, 1)], s, product)
  {
    var r := c + [CartLine(product, 1)];
    IdsAppend(c, CartLine(product, 1));
    TotalAppend(c, [CartLine(product, 1)]);
    assert r[..|r| - 1] == c;
    assert UniqueIds(r) by {
      forall j, k | 0 <= j < k < |r| ensures r[j].product.id != r[k].product.id {
        assert r[j] == c[j];
        assert c[j].product.id in Ids(c);
      }
    }
  }

  /** Increase when the id is present: its one line gains a unit. */
  lemma IncreasePresent(c: seq<CartLine>, s: seq<CartLine>, product: Product)
    requires SameUnits(c, s) && product.id in Ids(s)
    ensures AddsOneUnit(Bump(c, product.id, 1), s, product)
  {
    var i := Find(c, product.id);
    BumpUnique(c, product.id, 1);
    var t := c[i := c[i].(quantity := c[i].quantity + 1)];
    assert Bump(c, product.id, 1) == t;
    UpdateQuantity(c, i, 1);
    UpdateLineShape(c, i, 1);
    if Positive(s) {
      assert c[i].quantity >= 1;
    }
  }

  /** `increaseCartQuantity(product)`: consolidate, then add one unit of `product`,
      appending a fresh line when its id is absent and otherwise keeping the line's
      original product snapshot. */
  function Increase(s: seq<CartLine>, product: Product): (r: seq<CartLine>)
    ensures AddsOneUnit(r, s, product)
    ensures product.id !in Ids(s) ==> r == Consolidate(s) + [CartLine(product, 1)]
    ensures product.id in Ids(s) ==>
      && |r| == |Consolidate(s)|
      && forall k :: 0 <= k < |r| ==>
           && r[k].product == Consolidate(s)[k].product
           && (r[k].product.id != product.id ==> r[k] == Consolidate(s)[k])
  {
    var c := Consolidate(s);
    if Find(c, product.id) == |c| then
      ConsolidateSameUnits(s);
      IncreaseAbsent(c, s, product);
      c + [CartLine(product, 1)]
    else
      ConsolidateSameUnits(s);
      IncreasePresent(c, s, product);
      Bump(c, product.id, 1)
  }

  // ---------------------------------------------------------------------------
  // removeFromCart

  /** `removeFromCart(id)`: `.filter(line => line.product.id !== id)`, without
      consolidating first. */
  function RemoveFromCart(s: seq<CartLine>, id: string): (r: seq<CartLine>)
    ensures |r| <= |s|
    ensures forall k :: 0 <= k < |r| ==> r[k] in s && r[k].product.id != id
    ensures Ids(r) == Ids(s) - {id}
  {
    if s == [] then []
    else
      var p := s[..|s| - 1];
      var x := s[|s| - 1];
      var q := RemoveFromCart(p, id);
      assert p + [x] == s;
      IdsAppend(p, x);
      if x.product.id == id then q
      else IdsAppend(q, x); q + [x]
  }

  /** The filter distributes over concatenation, so the surviving lines keep their
      relative order. */
  lemma {:induction false} RemoveFromCartAppend(a: seq<CartLine>, b: seq<CartLine>, id: string)
    ensures RemoveFromCart(a + b, id) == RemoveFromCart(a, id) + RemoveFromCart(b, id)
  {
    if b == [] {
      assert a + b == a;
    } else {
      var b' := b[..|b| - 1];
      assert (a + b)[..|a + b| - 1] == a + b';
      assert (a + b)[|a + b| - 1] == b[|b| - 1];
      RemoveFromCartAppend(a, b', id);
    }
  }

  /** Removing an id no line carries leaves the list unchanged. */
  lemma {:induction false} RemoveFromCartAbsent(s: seq<CartLine>, id: string)
    requires id !in Ids(s)
    ensures RemoveFromCart(s, id) == s
  {
    if s != [] {
      var p := s[..|s| - 1];
      assert p + [s[|s| - 1]] == s;
      IdsAppend(p, s[|s| - 1]);
      RemoveFromCartAbsent(p, id);
    }
  }

  /** Removing an id zeroes its quantity, keeps every other id's quantity, and lowers the
      total by exactly the removed quantity. */
  lemma {:induction false} RemoveFromCartQuantities(s: seq<CartLine>, id: string)
    ensures forall x :: QuantityOf(RemoveFromCart(s, id), x) == if x == id then 0 else QuantityOf(s, x)
    ensures Total(RemoveFromCart(s, id)) == Total(s) - QuantityOf(s, id)
  {
    if s != [] {
      var p := s[..|s| - 1];
      var x := s[|s| - 1];
      var q := RemoveFromCart(p, id);
      RemoveFromCartQuantities(p, id);
      if x.product.id != id {
        assert (q + [x])[..|q + [x]| - 1] == q;
        TotalAppend(q, [x]);
      }
    }
  }

  /** Removing lines keeps ids unique and quantities positive. */
  lemma RemoveFromCartKeeps(s: seq<CartLine>, id: string)
    ensures UniqueIds(s) ==> UniqueIds(RemoveFromCart(s, id))
    ensures Positive(s) ==> Positive(RemoveFromCart(s, id))
  {
    var r := RemoveFromCart(s, id);
    if UniqueIds(s) {
      forall j, k | 0 <= j < k < |r| ensures r[j].product.id != r[k].product.id {
        RemoveFromCartOrder(s, id, j, k);
      }
    }
  }

  /** Surviving lines appear in the same relative order as in the input. */
  lemma {:induction false} RemoveFromCartOrder(s: seq<CartLine>, id: string, j: nat, k: nat)
    requires j < k < |RemoveFromCart(s, id)|
    ensures exists a, b :: 0 <= a < b < |s| && RemoveFromCart(s, id)[j] == s[a] && RemoveFromCart(s, id)[k] == s[b]
  {
    var p := s[..|s| - 1];
    var x := s[|s| - 1];
    var q := RemoveFromCart(p, id);
    assert p + [x] == s;
    if k < |q| {
      RemoveFromCartOrder(p, id, j, k);
      var a, b :| 0 <= a < b < |p| && q[j] == p[a] && q[k] == p[b];
      assert s[a] == p[a] && s[b] == p[b];
    } else {
      assert RemoveFromCart(s, id)[k] == s[|s| - 1];
      assert q[j] in p;
      var a :| 0 <= a < |p| && p[a] == q[j];
      assert s[a] == p[a];
    }
  }

  // ---------------------------------------------------------------------------
  // decreaseCartQuantity

  /** What taking one unit of `id` out of `s` must achieve: ids stay unique; a present
      id loses one unit, and its line disappears when that was its last unit; no other
      id's quantity changes; the total drops by one exactly when the id was present. */
  ghost predicate RemovesOneUnit(r: seq<CartLine>, s: seq<CartLine>, id: string) {
    && UniqueIds(r)
    && (forall x :: QuantityOf(r, x) == QuantityOf(s, x) - (if x == id && id in Ids(s) then 1 else 0))
    && Ids(r) == (if id in Ids(s) && QuantityOf(s, id) == 1 then Ids(s) - {id} else Ids(s))
    && Total(r) == Total(s) - (if id in Ids(s) then 1 else 0)
    && (Positive(s) ==> Positive(r))
  }

  /** Decrease on the last unit of an id: the line is filtered out. */
  lemma DecreaseLast(c: seq<CartLine>, s: seq<CartLine>, id: string)
    requires SameUnits(c, s) && Find(c, id) < |c| && c[Find(c, id)].quantity == 1
    ensures RemovesOneUnit(RemoveFromCart(c, id), s, id)
    ensures id in Ids(s) && QuantityOf(s, id) == 1
  {
    QuantityOfUnique(c, Find(c, id));
    RemoveFromCartQuantities(c, id);
    RemoveFromCartKeeps(c, id);
  }

  /** Decrease on an id with more units, or on an absent id: the `.map` step. */
  lemma DecreaseMore(c: seq<CartLine>, s: seq<CartLine>, id: string)
    requires SameUnits(c, s) && !(Find(c, id) < |c| && c[Find(c, id)].quantity == 1)
    ensures RemovesOneUnit(Bump(c, id, -1), s, id)
    ensures id !in Ids(s) ==> Bump(c, id, -1) == c
    ensures id in Ids(s) ==> QuantityOf(s, id) != 1
  {
    var i := Find(c, id);
    BumpUnique(c, id, -1);
    if i < |c| {
      DecreaseOnLine(c, s, id, i);
    } else {
      assert id !in Ids(s);
    }
  }

  /** Taking one unit off the id's line when it holds a number other than one. */
  lemma DecreaseOnLine(c: seq<CartLine>, s: seq<CartLine>, id: string, i: nat)
    requires SameUnits(c, s) && i < |c| && c[i].product.id == id && c[i].quantity != 1
    ensures RemovesOneUnit(c[i := c[i].(quantity := c[i].quantity - 1)], s, id)
  {
    var t := c[i := c[i].(quantity := c[i].quantity - 1)];
    QuantityOfUnique(c, i);
    UpdateQuantity(c, i, -1);
    UpdateLineShape(c, i, -1);
    assert id in Ids(c);
    assert QuantityOf(s, id) == c[i].quantity;
    if Positive(s) {
      assert c[i].quantity >= 1;
    }
  }

  /** `decreaseCartQuantity(id)`: consolidate, then drop the id's line when it holds one
      unit, or take one unit off it otherwise; an absent id yields the consolidated cart. */
  function Decrease(s: seq<CartLine>, id: string): (r: seq<CartLine>)
    ensures RemovesOneUnit(r, s, id)
    ensures id !in Ids(s) ==> r == Consolidate(s)
    ensures id in Ids(s) && QuantityOf(s, id) == 1 ==> r == RemoveFromCart(Consolidate(s), id)
    ensures id in Ids(s) && QuantityOf(s, id) != 1 ==>
      && |r| == |Consolidate(s)|
      && forall k :: 0 <= k < |r| ==>
           && r[k].product == Consolidate(s)[k].product
           && (r[k].product.id != id ==> r[k] == Consolidate(s)[k])
  {
    var c := Consolidate(s);
    var i := Find(c, id);
    ConsolidateSameUnits(s);
    if i < |c| && c[i].quantity == 1 then
      DecreaseLast(c, s, id);
      RemoveFromCart(c, id)
    else
      DecreaseMore(c, s, id);
      Bump(c, id, -1)
  }

  /** Adding a product the cart lacks and then taking it out again gives back the
      consolidated original cart. */
  lemma IncreaseThenDecrease(s: seq<CartLine>, product: Product)
    requires product.id !in Ids(s)
    ensures Decrease(Increase(s, product), product.id) == Consolidate(s)
  {
    var c := Consolidate(s);
    var line := CartLine(product, 1);
    var t := Increase(s, product);
    assert t == c + [line];
    ConsolidateUnique(t);
    FindAppend(c, line, product.id);
    DecreaseSingleUnit(t, product.id, |c|);
    RemoveLastLine(c, line, product.id);
  }

  /** On a consolidated cart whose line for `id` holds one unit, decreasing removes it. */
  lemma DecreaseSingleUnit(t: seq<CartLine>, id: string, i: nat)
    requires Consolidate(t) == t && i == Find(t, id) && i < |t| && t[i].quantity == 1
    ensures Decrease(t, id) == RemoveFromCart(t, id)
  {
  }

  /** Removing the id of a line appended to a cart without it gives that cart back. */
  lemma RemoveLastLine(c: seq<CartLine>, line: CartLine, id: string)
    requires id !in Ids(c) && line.product.id == id
    ensures RemoveFromCart(c + [line], id) == c
  {
    var t := c + [line];
    assert t[..|t| - 1] == c && t[|t| - 1] == line;
    RemoveFromCartAbsent(c, id);
  }
}

=== FILE: checkout.dfy ===
/**
 * The checkout page as a state machine: the form record, the error map and the
 * step counter, changed by field edits, the Next and Previous buttons and the
 * submit gate. Navigation, the simulated payment and rendering are not modelled.
 */
module Checkout {
  import opened Text
  import opened Form
  import Validation
  import Formatting
  import CartStore

  /** The page state the handlers read and write. */
  datatype Page = Page(form: FormData, errors: Errors, step: int)

  /** The state of a freshly mounted page. */
  const InitialPage := Page(InitialForm, map[], 1)

  /** The step counter is one of the three steps. */
  predicate StepInRange(p: Page) {
    1 <= p.step <= 3
  }

  // ---------------------------------------------------------------------------
  // validateStep

  /** The fields step 1 (shipping) requires. */
  const ShippingFields: set<TextField> :=
    {FirstName, LastName, Email, Phone, Address, City, State, ZipCode, Country}

  /** The fields step 2 (payment) requires. */
  const PaymentFields: set<TextField> := {CardNumber, ExpiryDate, Cvv, CardholderName}

  /** The message a blank field gets from the step check; for the phone it differs
      from the message of the full-form check. */
  function StepMessage(f: TextField): string {
    match f
    case FirstName => "First name is required"
    case LastName => "Last name is required"
    case Email => "Email is required"
    case Phone => "Phone is required"
    case Address => "Address is required"
    case City => "City is required"
    case State => "State is required"
    case ZipCode => "ZIP code is required"
    case Country => "Country is required"
    case CardNumber => "Card number is required"
    case ExpiryDate => "Expiry date is required"
    case Cvv => "CVV is required"
    case CardholderName => "Cardholder name is required"
    case SpecialInstructions => ""
  }

  /** The fields the step checks: none for any step but 1 and 2. */
  function StepFields(step: int): set<TextField> {
    if step == 1 then ShippingFields else if step == 2 then PaymentFields else {}
  }

  /** The `stepErrors` object `validateStep` builds: the blank required fields of the
      step, each with its message. */
  function StepErrors(d: FormData, step: int): (errors: Errors)
    ensures General !in errors
    ensures forall k :: k in errors ==> k.On? && k.field in StepFields(step)
  {
    map f | f in StepFields(step) && Blank(d.Text(f)) :: On(f) := StepMessage(f)
  }

  /** `validateStep`: whether the step's error object is empty. */
  predicate ValidateStep(d: FormData, step: int) {
    StepErrors(d, step) == map[]
  }

  /** A field of the step is reported exactly when it is blank, with its message. */
  lemma StepErrorsReport(d: FormData, step: int, f: TextField)
    requires f in StepFields(step)
    ensures On(f) in StepErrors(d, step) <==> Blank(d.Text(f))
    ensures On(f) in StepErrors(d, step) ==> StepErrors(d, step)[On(f)] == StepMessage(f)
  {
  }

  /** A step passes exactly when none of its required fields is blank: the nine
      shipping fields for step 1, the four payment fields for step 2, and nothing
      for any other step. */
  lemma ValidateStepIff(d: FormData, step: int)
    ensures ValidateStep(d, step) <==> forall f :: f in StepFields(step) ==> !Blank(d.Text(f))
    ensures step != 1 && step != 2 ==> ValidateStep(d, step)
  {
    var errors := StepErrors(d, step);
    if ValidateStep(d, step) {
      forall f | f in StepFields(step) ensures !Blank(d.Text(f)) {
        StepErrorsReport(d, step, f);
      }
    }
    if forall f :: f in StepFields(step) ==> !Blank(d.Text(f)) {
      assert forall k :: k !in errors;
    }
  }

  /** A field the full-form check leaves without a message is not blank, so it also
      passes its step check. */
  lemma FieldPassesStep(d: FormData, today: Validation.Today, f: TextField)
    requires f in Validation.CheckedFields
    requires On(f) !in Validation.ValidateCheckoutForm(d, today)
    ensures !Blank(d.Text(f))
  {
    Validation.ValidateCheckoutFormMessages(d, today, f);
  }

  /** A form the full-form check accepts passes both the shipping and the payment step. */
  lemma ValidFormPassesSteps(d: FormData, today: Validation.Today)
    requires Validation.FormValid(d, today)
    ensures ValidateStep(d, 1) && ValidateStep(d, 2)
  {
    Validation.ValidateCheckoutFormEmptyIff(d, today);
    NoErrorsPassStep(d, today, 1);
    NoErrorsPassStep(d, today, 2);
  }

  lemma NoErrorsPassStep(d: FormData, today: Validation.Today, step: int)
    requires Validation.ValidateCheckoutForm(d, today) == map[]
    ensures ValidateStep(d, step)
  {
    forall f | f in StepFields(step) ensures !Blank(d.Text(f)) {
      assert f in Validation.CheckedFields;
      FieldPassesStep(d, today, f);
    }
    ValidateStepIff(d, step);
  }

  // ---------------------------------------------------------------------------
  // handleNext, handlePrevious

  /** `handleNext`: the error map becomes the step's errors; the step advances, capped
      at 3, only when there are none. */
  function HandleNext(p: Page): (q: Page)
    ensures q.form == p.form
    ensures q.errors == StepErrors(p.form, p.step)
  {
    var errors := StepErrors(p.form, p.step);
    Page(p.form, errors, if errors == map[] then (if p.step + 1 < 3 then p.step + 1 else 3) else p.step)
  }

  /** `handlePrevious`: the step goes back, not below 1; nothing else changes. */
  function HandlePrevious(p: Page): (q: Page)
    ensures q.form == p.form && q.errors == p.errors
  {
    p.(step := if p.step - 1 > 1 then p.step - 1 else 1)
  }

  /** Next advances by exactly one step when the current step passes and is not the
      last, and otherwise stays where it is. */
  lemma HandleNextAdvances(p: Page)
    requires StepInRange(p)
    ensures StepInRange(HandleNext(p))
    ensures HandleNext(p).step == p.step + 1 <==> ValidateStep(p.form, p.step) && p.step < 3
    ensures HandleNext(p).step != p.step + 1 ==> HandleNext(p).step == p.step
  {
  }

  /** Previous moves back by exactly one step unless it is at the first, and Next
      undoes it when the step it returns to passes. */
  lemma HandlePreviousRetreats(p: Page)
    requires StepInRange(p)
    ensures StepInRange(HandlePrevious(p))
    ensures HandlePrevious(p).step == if p.step == 1 then 1 else p.step - 1
    ensures p.step > 1 && ValidateStep(p.form, p.step - 1) ==>
      HandleNext(HandlePrevious(p)).step == p.step
  {
  }

  // ---------------------------------------------------------------------------
  // The step indicator

  /** One entry of the `steps` array the step indicator renders. */
  datatype StepView = StepView(id: string, title: string, completed: bool, active: bool)

  /** The `steps` array for the current step. */
  function Steps(current: int): (r: seq<StepView>)
    ensures |r| == 3
  {
    [ StepView("shipping", "Shipping", current > 1, current == 1),
      StepView("payment", "Payment", current > 2, current == 2),
      StepView("review", "Review", current > 3, current == 3) ]
  }

  /** Step k (counted from 1) is active exactly when it is the current step and
      completed exactly when the current step is past it; for a current step in
      1..3 exactly one entry is active, and the completed entries are those before it. */
  lemma StepsFlags(current: int)
    ensures forall i :: 0 <= i < 3 ==>
      (Steps(current)[i].active <==> current == i + 1) &&
      (Steps(current)[i].completed <==> current > i + 1)
    ensures 1 <= current <= 3 ==>
      && Steps(current)[current - 1].active
      && (forall i :: 0 <= i < 3 && Steps(current)[i].active ==> i == current - 1)
      && (forall i :: 0 <= i < 3 ==> (Steps(current)[i].completed <==> i < current - 1))
    ensures !(1 <= current <= 3) ==> forall i :: 0 <= i < 3 ==> !Steps(current)[i].active
  {
  }

  // ---------------------------------------------------------------------------
  // handleInputChange

  /** A change event of one input: a text input (or select or text area) with its
      new value, or a checkbox with its new state. */
  datatype InputEvent =
    | TextInput(field: TextField, value: string)
    | CheckboxInput(flag: FlagField, checked: bool)

  /** The value stored for a text input: card number, expiry date and phone go through
      their formatters, every other field keeps the typed value. */
  function Formatted(f: TextField, v: string): string {
    match f
    case CardNumber => Formatting.FormatCardNumber(v)
    case ExpiryDate => Formatting.FormatExpiryDate(v)
    case Phone => Formatting.FormatPhoneNumber(v)
    case _ => v
  }

  /** Formatting the stored value again leaves it as it is. */
  lemma FormattedIdempotent(f: TextField, v: string)
    ensures Formatted(f, Formatted(f, v)) == Formatted(f, v)
  {
    match f
    case CardNumber => Formatting.FormatCardNumberIdempotent(v);
    case ExpiryDate => Formatting.FormatExpiryDateIdempotent(v);
    case Phone => Formatting.FormatPhoneNumberIdempotent(v);
    case _ =>
  }

  /** `handleInputChange`: store the (formatted) value or the checked state; when the
      edited text field has a message set, clear it. */
  function HandleInputChange(p: Page, e: InputEvent): (q: Page)
    ensures q.step == p.step
    ensures e.TextInput? ==>
      && q.form.Text(e.field) == Formatted(e.field, e.value)
      && (forall g :: g != e.field ==> q.form.Text(g) == p.form.Text(g))
      && (forall g :: q.form.Flag(g) == p.form.Flag(g))
      && (On(e.field) in q.errors <==> On(e.field) in p.errors && p.errors[On(e.field)] == "")
      && (forall k :: k != On(e.field) ==> (k in q.errors <==> k in p.errors))
      && (forall k :: k in q.errors ==> q.errors[k] == p.errors[k])
    ensures e.CheckboxInput? ==>
      && q.form.Flag(e.flag) == e.checked
      && (forall g :: g != e.flag ==> q.form.Flag(g) == p.form.Flag(g))
      && (forall g :: q.form.Text(g) == p.form.Text(g))
      && q.errors == p.errors
  {
    match e
    case TextInput(f, v) =>
      var errors := if On(f) in p.errors && p.errors[On(f)] != "" then p.errors - {On(f)} else p.errors;
      Page(p.form.WithText(f, Formatted(f, v)), errors, p.step)
    case CheckboxInput(g, b) =>
      Page(p.form.WithFlag(g, b), p.errors, p.step)
  }

  /** Every message either check sets is non-empty, so an edit always clears the
      edited field's message. */
  lemma StepMessagesNonEmpty(d: FormData, step: int)
    ensures forall k :: k in StepErrors(d, step) ==> StepErrors(d, step)[k] != ""
  {
    forall k | k in StepErrors(d, step) ensures StepErrors(d, step)[k] != "" {
      StepErrorsReport(d, step, k.field);
      StepMessageNonEmpty(k.field, step);
    }
  }

  lemma StepMessageNonEmpty(f: TextField, step: int)
    requires f in StepFields(step)
    ensures StepMessage(f) != ""
  {
  }

  lemma FormMessagesNonEmpty(d: FormData, today: Validation.Today)
    ensures forall k :: k in Validation.ValidateCheckoutForm(d, today) ==>
      Validation.ValidateCheckoutForm(d, today)[k] != ""
  {
    forall k | k in Validation.ValidateCheckoutForm(d, today)
      ensures Validation.ValidateCheckoutForm(d, today)[k] != ""
    {
      Validation.ValidateCheckoutFormKey(d, today, k.field);
      Validation.FieldErrorNonEmpty(d, today, k.field);
    }
  }

  /** Every message the page shows is a non-empty string. */
  predicate MessagesSet(p: Page) {
    forall k :: k in p.errors ==> p.errors[k] != ""
  }

  /** On a page whose messages are all non-empty, editing a text field clears its
      message; by `RunKeepsMessagesSet` this holds on every page a session reaches. */
  lemma EditClearsMessage(p: Page, f: TextField, v: string)
    requires MessagesSet(p)
    ensures On(f) !in HandleInputChange(p, TextInput(f, v)).errors
  {
  }

  /** Sending back the value an input displays, as the browser does on every
      keystroke that leaves it unchanged, changes no field of the form. */
  lemma InputChangeStable(p: Page, f: TextField, v: string)
    ensures var q := HandleInputChange(p, TextInput(f, v));
      HandleInputChange(q, TextInput(f, q.form.Text(f))).form == q.form
  {
    var q := HandleInputChange(p, TextInput(f, v));
    FormattedIdempotent(f, v);
    var r := HandleInputChange(q, TextInput(f, q.form.Text(f)));
    assert forall g :: r.form.Text(g) == q.form.Text(g);
    assert forall g :: r.form.Flag(g) == q.form.Flag(g);
    FormExtensional(r.form, q.form);
  }

  /** Two forms that agree on every input are the same form. */
  lemma FormExtensional(a: FormData, b: FormData)
    requires forall g :: a.Text(g) == b.Text(g)
    requires forall g :: a.Flag(g) == b.Flag(g)
    ensures a == b
  {
    assert a.Text(FirstName) == b.Text(FirstName) && a.Text(LastName) == b.Text(LastName);
    assert a.Text(Email) == b.Text(Email) && a.Text(Phone) == b.Text(Phone);
    assert a.Text(Address) == b.Text(Address) && a.Text(City) == b.Text(City);
    assert a.Text(State) == b.Text(State) && a.Text(ZipCode) == b.Text(ZipCode);
    assert a.Text(Country) == b.Text(Country) && a.Text(CardNumber) == b.Text(CardNumber);
    assert a.Text(ExpiryDate) == b.Text(ExpiryDate) && a.Text(Cvv) == b.Text(Cvv);
    assert a.Text(CardholderName) == b.Text(CardholderName);
    assert a.Text(SpecialInstructions) == b.Text(SpecialInstructions);
    assert a.Flag(SaveInfo) == b.Flag(SaveInfo) && a.Flag(Newsletter) == b.Flag(Newsletter);
    assert a.Flag(GiftWrap) == b.Flag(GiftWrap);
  }

  // ---------------------------------------------------------------------------
  // handleSubmit and the empty-cart guard

  /** The outcome of the simulated payment: approved, declined (the 10% branch), or
      an exception thrown while waiting for it. */
  datatype PaymentResult = Approved | Declined | Crashed

  /** The general message a failed payment leaves. */
  function PaymentMessage(r: PaymentResult): string {
    match r
    case Approved => ""
    case Declined => "Payment processing failed. Please try again."
    case Crashed => "An error occurred. Please try again."
  }

  /** What submitting does: stop with the full-form errors stored, report a failed
      payment, or go on to the success page with the page unchanged. */
  datatype SubmitOutcome = Blocked(page: Page) | Failed(page: Page) | Succeeded(page: Page)

  /** `handleSubmit`, with the simulated payment's result as a parameter. */
  function HandleSubmit(p: Page, today: Validation.Today, payment: PaymentResult): (o: SubmitOutcome)
    ensures o.page.form == p.form && o.page.step == p.step
    ensures o.Blocked? ==> o.page.errors == Validation.ValidateCheckoutForm(p.form, today)
    ensures o.Failed? ==> payment != Approved && o.page.errors.Keys == {General}
    ensures o.Failed? ==> o.page.errors[General] == PaymentMessage(payment)
    ensures o.Succeeded? ==> o.page == p && payment == Approved
  {
    var all := Validation.ValidateCheckoutForm(p.form, today);
    if all != map[] then Blocked(p.(errors := all))
    else if payment == Approved then Succeeded(p)
    else Failed(p.(errors := map[General := PaymentMessage(payment)]))
  }

  /** Submission is blocked exactly when the form is invalid, and then the error map is
      not empty; on a valid form the payment result alone decides between success and
      failure. */
  lemma HandleSubmitGate(p: Page, today: Validation.Today, payment: PaymentResult)
    ensures HandleSubmit(p, today, payment).Blocked? <==> !Validation.FormValid(p.form, today)
    ensures HandleSubmit(p, today, payment).Blocked? ==> HandleSubmit(p, today, payment).page.errors != map[]
    ensures HandleSubmit(p, today, payment).Succeeded? <==>
      Validation.FormValid(p.form, today) && payment == Approved
  {
    Validation.ValidateCheckoutFormEmptyIff(p.form, today);
  }

  /** A failed payment replaces every field message by one non-empty general message. */
  lemma HandleSubmitFailure(p: Page, today: Validation.Today, payment: PaymentResult)
    ensures HandleSubmit(p, today, payment).Failed? ==>
      && (forall f :: On(f) !in HandleSubmit(p, today, payment).page.errors)
      && HandleSubmit(p, today, payment).page.errors[General] != ""
  {
    var o := HandleSubmit(p, today, payment);
    if o.Failed? {
      var keys := o.page.errors.Keys;
      assert keys == {General};
      assert forall f :: On(f) !in keys;
      assert payment == Declined || payment == Crashed;
    }
  }

  /** The page renders its form unless the cart quantity is 0. */
  predicate RendersForm(cartQuantity: int) {
    cartQuantity != 0
  }

  /** On a cart whose quantities are all at least 1, the form is rendered exactly when
      the cart has a line. */
  lemma RendersFormIffCartNonEmpty(cart: seq<CartStore.CartLine>)
    requires CartStore.Positive(cart)
    ensures RendersForm(CartStore.Total(cart)) <==> cart != []
  {
    CartStore.CartQuantityPositive(cart);
  }

  // ---------------------------------------------------------------------------
  // Sessions

  /** A user action on the page. A submission carries the date and the simulated
      payment's result it runs with. */
  datatype Action =
    | Edit(event: InputEvent)
    | Next
    | Previous
    | Submit(today: Validation.Today, payment: PaymentResult)

  function Step(p: Page, a: Action): Page {
    match a
    case Edit(e) => HandleInputChange(p, e)
    case Next => HandleNext(p)
    case Previous => HandlePrevious(p)
    case Submit(today, payment) => HandleSubmit(p, today, payment).page
  }

  /** The page after a sequence of actions, applied left to right. */
  function Run(p: Page, actions: seq<Action>): Page
    decreases |actions|
  {
    if actions == [] then p else Run(Step(p, actions[0]), actions[1..])
  }

  /** No sequence of edits and button presses takes the step counter out of 1..3. */
  lemma {:induction false} RunKeepsStepInRange(p: Page, actions: seq<Action>)
    requires StepInRange(p)
    ensures StepInRange(Run(p, actions))
    decreases |actions|
  {
    if actions != [] {
      match actions[0] {
        case Edit(e) =>
        case Next => HandleNextAdvances(p);
        case Previous => HandlePreviousRetreats(p);
        case Submit(_, _) =>
      }
      RunKeepsStepInRange(Step(p, actions[0]), actions[1..]);
    }
  }

  /** The page starts without messages, and no action sets an empty one: edits only
      remove messages, and both checks and a failed payment set non-empty ones. */
  lemma StepKeepsMessagesSet(p: Page, a: Action)
    requires MessagesSet(p)
    ensures MessagesSet(Step(p, a))
  {
    match a
    case Edit(e) =>
    case Next => StepMessagesNonEmpty(p.form, p.step);
    case Previous =>
    case Submit(today, payment) =>
      var o := HandleSubmit(p, today, payment);
      if o.Blocked? {
        FormMessagesNonEmpty(p.form, today);
      } else if o.Failed? {
        HandleSubmitFailure(p, today, payment);
        assert o.page.errors.Keys == {General};
      }
  }

  /** Every page a session reaches from the initial page shows only non-empty
      messages, so from any of them an edit clears the edited field's message. */
  lemma {:induction false} RunKeepsMessagesSet(p: Page, actions: seq<Action>)
    requires MessagesSet(p)
    ensures MessagesSet(Run(p, actions))
    decreases |actions|
  {
    if actions != [] {
      StepKeepsMessagesSet(p, actions[0]);
      RunKeepsMessagesSet(Step(p, actions[0]), actions[1..]);
    }
  }

  /** In any session from the initial page, whatever checks and submissions have run,
      editing a text field clears that field's message. */
  lemma SessionEditClearsMessage(actions: seq<Action>, f: TextField, v: string)
    ensures On(f) !in HandleInputChange(Run(InitialPage, actions), TextInput(f, v)).errors
  {
    RunKeepsMessagesSet(InitialPage, actions);
    EditClearsMessage(Run(InitialPage, actions), f, v);
  }

  /** Next moves from the payment step to the review step only when the four payment
      fields are filled in. */
  lemma NextToReviewNeedsPayment(p: Page)
    requires p.step == 2 && HandleNext(p).step == 3
    ensures forall f :: f in PaymentFields ==> !Blank(p.form.Text(f))
  {
    ValidateStepIff(p.form, 2);
  }
}

=== FILE: form.dfy ===
/** The checkout form record and its error map. */
module Form {

  /** The text inputs of the checkout form, by their `name` attribute. */
  datatype TextField =
    | FirstName | LastName | Email | Phone
    | Address | City | State | ZipCode | Country
    | CardNumber | ExpiryDate | Cvv | CardholderName
    | SpecialInstructions

  /** The checkbox inputs of the checkout form. */
  datatype FlagField = SaveInfo | Newsletter | GiftWrap

  datatype FormData = FormData(
    firstName: string, lastName: string, email: string, phone: string,
    address: string, city: string, state: string, zipCode: string, country: string,
    cardNumber: string, expiryDate: string, cvv: string, cardholderName: string,
    saveInfo: bool, newsletter: bool, giftWrap: bool,
    specialInstructions: string)
  {
    /** `formData[name]` for a text input. */
    function Text(f: TextField): string {
      match f
      case FirstName => firstName
      case LastName => lastName
      case Email => email
      case Phone => phone
      case Address => address
      case City => city
      case State => state
      case ZipCode => zipCode
      case Country => country
      case CardNumber => cardNumber
      case ExpiryDate => expiryDate
      case Cvv => cvv
      case CardholderName => cardholderName
      case SpecialInstructions => specialInstructions
    }

    /** `formData[name]` for a checkbox. */
    function Flag(f: FlagField): bool {
      match f
      case SaveInfo => saveInfo
      case Newsletter => newsletter
      case GiftWrap => giftWrap
    }

    /** `{ ...formData, [name]: v }` for a text input. */
    function WithText(f: TextField, v: string): (d: FormData)
      ensures d.Text(f) == v
      ensures forall g :: g != f ==> d.Text(g) == Text(g)
      ensures forall g :: d.Flag(g) == Flag(g)
    {
      match f
      case FirstName => this.(firstName := v)
      case LastName => this.(lastName := v)
      case Email => this.(email := v)
      case Phone => this.(phone := v)
      case Address => this.(address := v)
      case City => this.(city := v)
      case State => this.(state := v)
      case ZipCode => this.(zipCode := v)
      case Country => this.(country := v)
      case CardNumber => this.(cardNumber := v)
      case ExpiryDate => this.(expiryDate := v)
      case Cvv => this.(cvv := v)
      case CardholderName => this.(cardholderName := v)
      case SpecialInstructions => this.(specialInstructions := v)
    }

    /** `{ ...formData, [name]: checked }` for a checkbox. */
    function WithFlag(f: FlagField, b: bool): (d: FormData)
      ensures d.Flag(f) == b
      ensures forall g :: g != f ==> d.Flag(g) == Flag(g)
      ensures forall g :: d.Text(g) == Text(g)
    {
      match f
      case SaveInfo => this.(saveInfo := b)
      case Newsletter => this.(newsletter := b)
      case GiftWrap => this.(giftWrap := b)
    }
  }

  /** The form's initial state: empty fields, "United States" as the country, and
      every checkbox cleared. */
  const InitialForm := FormData("", "", "", "", "", "", "", "", "United States",
                                "", "", "", "", false, false, false, "")

  /** The keys of `CheckoutFormErrors`: one per validated text field, and `general`. */
  datatype ErrorKey = On(field: TextField) | General

  /** An error map: a key is present when its message is set. */
  type Errors = map<ErrorKey, string>
}

=== FILE: formatting.dfy ===
/**
 * The input formatters of the checkout form: card numbers in groups of four,
 * expiry dates as MM/YY and telephone numbers as (ddd) ddd-dddd. Each is applied
 * to every keystroke, so each must be a fixpoint on its own output.
 */
module Formatting {
  import opened Text
  import Validation

  // ---------------------------------------------------------------------------
  // Sequence helpers

  lemma TakeAppend(a: string, b: string, n: nat)
    requires |a| <= n
    ensures Take(a + b, n) == a + Take(b, n - |a|)
  {
    if |a + b| > n {
      assert (a + b)[..n] == a + b[..n - |a|];
    }
  }

  lemma TakeTake(s: string, n: nat)
    ensures Take(Take(s, n), n) == Take(s, n)
  {
  }

  /** Filtering distributes over the pieces a formatter glues together. */
  lemma FilterAppend3(a: string, b: string, c: string, keep: char -> bool)
    ensures Filter(a + b + c, keep) == Filter(a, keep) + Filter(b, keep) + Filter(c, keep)
  {
    FilterAppend(a + b, c, keep);
    FilterAppend(a, b, keep);
  }

  lemma KeepDigitsOfDigits(s: string)
    requires AllDigits(s)
    ensures KeepDigits(s) == s
  {
    FilterKeepsAll(s, IsDigit);
  }

  lemma KeepDigitsOfPunct(s: string)
    requires forall i :: 0 <= i < |s| ==> !IsDigit(s[i])
    ensures KeepDigits(s) == ""
  {
    FilterDropsAll(s, IsDigit);
  }

  // ---------------------------------------------------------------------------
  // formatCardNumber

  /** `cleaned.match(/.{1,4}/g).join(' ')`: runs of four characters, the last one
      possibly shorter, joined by single spaces; the empty string when there is no
      match. */
  function Groups(c: string): (r: string)
    ensures |r| >= |c|
    decreases |c|
  {
    if |c| <= 4 then c else c[..4] + " " + Groups(c[4..])
  }

  /** A non-empty string of length n grouped this way gains (n - 1) / 4 spaces. */
  lemma {:induction false} GroupsLength(c: string)
    requires c != ""
    ensures |Groups(c)| == |c| + (|c| - 1) / 4
    decreases |c|
  {
    if |c| > 4 {
      GroupsLength(c[4..]);
    }
  }

  /** Removing the separators gives back the characters that were grouped. */
  lemma {:induction false} GroupsStripped(c: string)
    requires NoSpace(c)
    ensures StripSpaces(Groups(c)) == c
    decreases |c|
  {
    if |c| <= 4 {
      FilterKeepsAll(c, NotSpace);
    } else {
      GroupsStripped(c[4..]);
      FilterAppend3(c[..4], " ", Groups(c[4..]), NotSpace);
      FilterKeepsAll(c[..4], NotSpace);
      FilterDropsAll(" ", NotSpace);
      assert c == c[..4] + c[4..];
    }
  }

  /** Cutting the grouped text after `n + n / 4 - 1` characters, for a multiple n of
      four, is grouping the first n characters. */
  lemma {:induction false} GroupsTake(c: string, n: nat)
    requires n >= 4 && n % 4 == 0
    ensures Take(Groups(c), n + n / 4 - 1) == Groups(Take(c, n))
    decreases n
  {
    if |c| > 4 && n > 4 {
      var m := n - 4;
      assert n + n / 4 - 1 == 5 + (m + m / 4 - 1);
      TakeAppend(c[..4] + " ", Groups(c[4..]), n + n / 4 - 1);
      GroupsTake(c[4..], m);
      TakeAfterFour(c, n);
    }
  }

  /** Taking n >= 4 characters keeps the first four and takes n - 4 of the rest. */
  lemma TakeAfterFour(c: string, n: nat)
    requires |c| > 4 && n >= 4
    ensures Take(c, n) == c[..4] + Take(c[4..], n - 4)
  {
    if |c| > n {
      assert c[..n] == c[..4] + c[4..][..n - 4];
    } else {
      assert c == c[..4] + c[4..];
    }
  }

  /** `formatCardNumber`: white space removed, grouped by four, cut to 19 characters. */
  function FormatCardNumber(v: string): (r: string)
    ensures |r| <= 19
  {
    Take(Groups(StripSpaces(v)), 19)
  }

  /** The cut after 19 characters falls exactly after the fourth group: the result is
      the first sixteen characters, grouped. */
  lemma FormatCardNumberGroups(v: string)
    ensures FormatCardNumber(v) == Groups(Take(StripSpaces(v), 16))
  {
    GroupsTake(StripSpaces(v), 16);
  }

  /** The characters of a formatted card number, separators removed, are the first
      sixteen non-space characters of the input. */
  lemma FormatCardNumberDigits(v: string)
    ensures StripSpaces(FormatCardNumber(v)) == Take(StripSpaces(v), 16)
  {
    FormatCardNumberGroups(v);
    GroupsStripped(Take(StripSpaces(v), 16));
  }

  /** Formatting a formatted card number changes nothing. */
  lemma FormatCardNumberIdempotent(v: string)
    ensures FormatCardNumber(FormatCardNumber(v)) == FormatCardNumber(v)
  {
    FormatCardNumberGroups(v);
    FormatCardNumberGroups(FormatCardNumber(v));
    FormatCardNumberDigits(v);
  }

  /** Formatting keeps the verdict of the card-number check for inputs of at most
      sixteen characters, and a formatted card number never carries the seventeen
      to nineteen digits the check also accepts. */
  lemma FormatCardNumberValidity(v: string)
    ensures |StripSpaces(v)| <= 16 ==>
      (Validation.IsCardNumber(FormatCardNumber(v)) <==> Validation.IsCardNumber(v))
    ensures Validation.IsCardNumber(FormatCardNumber(v)) ==>
      13 <= |StripSpaces(FormatCardNumber(v))| <= 16
  {
    FormatCardNumberDigits(v);
  }

  // ---------------------------------------------------------------------------
  // formatExpiryDate

  /** `formatExpiryDate`: the digits only; from two digits on, the first two, a slash
      and the next two at most. */
  function FormatExpiryDate(v: string): (r: string)
    ensures |r| <= 5
  {
    var c := KeepDigits(v);
    if |c| >= 2 then c[..2] + "/" + Slice(c, 2, 4) else c
  }

  /** The digits of a formatted expiry date are the first four digits of the input. */
  lemma FormatExpiryDateDigits(v: string)
    ensures KeepDigits(FormatExpiryDate(v)) == Take(KeepDigits(v), 4)
  {
    var c := KeepDigits(v);
    if |c| >= 2 {
      FilterAppend3(c[..2], "/", Slice(c, 2, 4), IsDigit);
      KeepDigitsOfDigits(c[..2]);
      KeepDigitsOfPunct("/");
      KeepDigitsOfDigits(Slice(c, 2, 4));
      assert c[..2] + Slice(c, 2, 4) == Take(c, 4);
    } else {
      KeepDigitsOfDigits(c);
    }
  }

  /** Formatting a formatted expiry date changes nothing. */
  lemma FormatExpiryDateIdempotent(v: string)
    ensures FormatExpiryDate(FormatExpiryDate(v)) == FormatExpiryDate(v)
  {
    FormatExpiryDateDigits(v);
    var c := KeepDigits(v);
    if |c| >= 2 {
      assert Take(c, 4)[..2] == c[..2];
      assert Slice(Take(c, 4), 2, 4) == Slice(c, 2, 4);
    }
  }

  /** A formatted expiry date has the MM/YY shape exactly when the input has at least
      four digits and its first two name a month. */
  lemma FormatExpiryDateShape(v: string)
    ensures Validation.ExpiryShape(FormatExpiryDate(v)) <==>
      var c := KeepDigits(v);
      |c| >= 4 && 1 <= 10 * DigitValue(c[0]) + DigitValue(c[1]) <= 12
  {
    Validation.ExpiryShapeIsMonthRange(FormatExpiryDate(v));
  }

  /** Text already in the MM/YY shape is left as it is. */
  lemma FormatExpiryDateFixes(s: string)
    requires Validation.ExpiryShape(s)
    ensures FormatExpiryDate(s) == s
  {
    FilterAppend3(s[..2], "/", s[3..], IsDigit);
    assert s == s[..2] + "/" + s[3..];
    KeepDigitsOfDigits(s[..2]);
    KeepDigitsOfPunct("/");
    KeepDigitsOfDigits(s[3..]);
  }

  // ---------------------------------------------------------------------------
  // formatPhoneNumber

  /** `formatPhoneNumber`: the digits only; from six digits on `(ddd) ddd-` and up to
      four more, from three digits on `(ddd) ` and the rest. */
  function FormatPhoneNumber(v: string): (r: string)
    ensures |r| <= 14
  {
    var c := KeepDigits(v);
    if |c| >= 6 then "(" + c[..3] + ") " + c[3..6] + "-" + Slice(c, 6, 10)
    else if |c| >= 3 then "(" + c[..3] + ") " + c[3..]
    else c
  }

  lemma FilterKeepPrefix(p: string, x: string, keep: char -> bool)
    requires forall i :: 0 <= i < |p| ==> keep(p[i])
    ensures Filter(p + x, keep) == p + Filter(x, keep)
  {
    FilterAppend(p, x, keep);
    FilterKeepsAll(p, keep);
  }

  /** A filter that keeps the area code and drops the punctuation around it. */
  lemma FilterAreaCode(a: string, x: string, keep: char -> bool)
    requires forall i :: 0 <= i < |a| ==> keep(a[i])
    requires !keep('(') && !keep(')') && !keep(' ')
    ensures Filter("(" + a + ") " + x, keep) == a + Filter(x, keep)
  {
    var y := [' '] + x;
    var z := [')'] + y;
    assert "(" + a + ") " + x == ['('] + (a + z);
    DropChar('(', a + z, keep);
    FilterKeepPrefix(a, z, keep);
    DropChar(')', y, keep);
    DropChar(' ', x, keep);
  }

  lemma FilterPhoneTail(b: string, t: string, keep: char -> bool)
    requires forall i :: 0 <= i < |b| ==> keep(b[i])
    requires forall i :: 0 <= i < |t| ==> keep(t[i])
    requires !keep('-')
    ensures Filter(b + "-" + t, keep) == b + t
  {
    var x := "-" + t;
    assert b + "-" + t == b + x;
    FilterKeepPrefix(b, x, keep);
    DropChar('-', t, keep);
    FilterKeepsAll(t, keep);
  }

  /** A character the filter rejects disappears from the front. */
  lemma DropChar(c: char, t: string, keep: char -> bool)
    requires !keep(c)
    ensures Filter([c] + t, keep) == Filter(t, keep)
  {
    var x := [c] + t;
    assert x[0] == c && x[1..] == t;
  }

  /** A filter that keeps the digits and drops the formatter's punctuation recovers
      the digits of the long form. */
  lemma FilterPhoneLong(c: string, keep: char -> bool)
    requires |c| >= 6
    requires forall i :: 0 <= i < |c| ==> keep(c[i])
    requires !keep('(') && !keep(')') && !keep(' ') && !keep('-')
    ensures Filter("(" + c[..3] + ") " + c[3..6] + "-" + Slice(c, 6, 10), keep) == Take(c, 10)
  {
    var a, b, t := c[..3], c[3..6], Slice(c, 6, 10);
    assert "(" + a + ") " + b + "-" + t == "(" + a + ") " + (b + "-" + t);
    FilterAreaCode(a, b + "-" + t, keep);
    FilterPhoneTail(b, t, keep);
    assert a + (b + t) == Take(c, 10);
  }

  /** The same for the short form `(ddd) rest`. */
  lemma FilterPhoneShort(c: string, keep: char -> bool)
    requires |c| >= 3
    requires forall i :: 0 <= i < |c| ==> keep(c[i])
    requires !keep('(') && !keep(')') && !keep(' ')
    ensures Filter("(" + c[..3] + ") " + c[3..], keep) == c
  {
    FilterAreaCode(c[..3], c[3..], keep);
    FilterKeepsAll(c[3..], keep);
    assert c[..3] + c[3..] == c;
  }

  /** The digits of a formatted phone number are the first ten digits of the input. */
  lemma FormatPhoneNumberDigits(v: string)
    ensures KeepDigits(FormatPhoneNumber(v)) == Take(KeepDigits(v), 10)
  {
    var c := KeepDigits(v);
    if |c| >= 6 {
      FilterPhoneLong(c, IsDigit);
    } else if |c| >= 3 {
      FilterPhoneShort(c, IsDigit);
    } else {
      KeepDigitsOfDigits(c);
    }
  }

  /** Formatting a formatted phone number changes nothing. */
  lemma FormatPhoneNumberIdempotent(v: string)
    ensures FormatPhoneNumber(FormatPhoneNumber(v)) == FormatPhoneNumber(v)
  {
    FormatPhoneNumberDigits(v);
    var c := KeepDigits(v);
    if |c| >= 6 {
      assert Take(c, 10)[..3] == c[..3];
      assert Take(c, 10)[3..6] == c[3..6];
      assert Slice(Take(c, 10), 6, 10) == Slice(c, 6, 10);
    }
  }

  /** What the phone check sees of a formatted number: the punctuation the formatter
      adds is exactly what the check removes. */
  lemma FormatPhoneNumberCleaned(v: string)
    ensures Validation.CleanPhone(FormatPhoneNumber(v)) == Take(KeepDigits(v), 10)
  {
    var c := KeepDigits(v);
    var keep := Validation.NotPhonePunct;
    assert forall i :: 0 <= i < |c| ==> keep(c[i]);
    if |c| >= 6 {
      FilterPhoneLong(c, keep);
    } else if |c| >= 3 {
      FilterPhoneShort(c, keep);
    } else {
      FilterKeepsAll(c, keep);
    }
  }

  /** A formatted phone number passes the phone check exactly when the input has a
      digit and its first digit is not zero; a leading `+` does not survive formatting. */
  lemma FormatPhoneNumberValidity(v: string)
    ensures Validation.IsPhone(Validation.CleanPhone(FormatPhoneNumber(v))) <==>
      |KeepDigits(v)| >= 1 && KeepDigits(v)[0] != '0'
  {
    FormatPhoneNumberCleaned(v);
  }
}

=== FILE: luhn.dfy ===
/**
 * The Luhn mod-10 check of ISO/IEC 7812-1, Annex B, as the card-number validator
 * computes it: walking from the rightmost digit, every second digit is doubled and
 * reduced by 9 when the double exceeds 9; the number is valid when the sum is a
 * multiple of 10.
 */
module Luhn {
  import opened Text

  /** One digit's share of the sum. */
  function Contribution(d: int, doubled: bool): int {
    if !doubled then d else if 2 * d > 9 then 2 * d - 9 else 2 * d
  }

  /** The Luhn sum of `s`, reading from the right; `doubled` says whether the rightmost
      digit of `s` is one of the doubled ones. */
  function Sum(s: string, doubled: bool): int {
    if s == [] then 0
    else Contribution(DigitValue(s[|s| - 1]), doubled) + Sum(s[..|s| - 1], !doubled)
  }

  /** The check of the whole number: its rightmost digit is not doubled. */
  predicate Valid(s: string) {
    Sum(s, false) % 10 == 0
  }

  /** The sum of a concatenation: `u`'s digits keep or flip their doubling according to
      the parity of `v`'s length. */
  lemma {:induction false} SumSplit(u: string, v: string, doubled: bool)
    ensures Sum(u + v, doubled) == Sum(v, doubled) + Sum(u, doubled != (|v| % 2 == 1))
  {
    if v == [] {
      assert u + v == u;
    } else {
      assert (u + v)[..|u + v| - 1] == u + v[..|v| - 1];
      SumSplit(u, v[..|v| - 1], !doubled);
    }
  }

  /** The loop of `validateCardNumber`: walk from the last character to the first,
      doubling every second digit. */
  method Checksum(cleaned: string) returns (sum: int)
    ensures sum == Sum(cleaned, false)
  {
    sum := 0;
    var isEven := false;
    var i := |cleaned| - 1;
    while i >= 0
      invariant -1 <= i < |cleaned|
      invariant isEven == ((|cleaned| - 1 - i) % 2 == 1)
      invariant sum == Sum(cleaned[i + 1..], false)
    {
      var digit := DigitValue(cleaned[i]);
      if isEven {
        digit := digit * 2;
        if digit > 9 {
          digit := digit - 9;
        }
      }
      SumSplit([cleaned[i]], cleaned[i + 1..], false);
      assert [cleaned[i]] + cleaned[i + 1..] == cleaned[i..];
      sum := sum + digit;
      isEven := !isEven;
      i := i - 1;
    }
    assert cleaned[0..] == cleaned;
  }

  /** The check digit completing `payload`. */
  function CheckDigit(payload: string): int {
    (10 - Sum(payload, true) % 10) % 10
  }

  /** Appending a digit to `payload` gives a valid number exactly when that digit is the
      check digit: for every payload exactly one of the ten digits completes it. */
  lemma CheckDigitCompletes(payload: string, d: char)
    requires IsDigit(d)
    ensures Valid(payload + [d]) <==> DigitValue(d) == CheckDigit(payload)
  {
    assert (payload + [d])[..|payload|] == payload;
    var x := Sum(payload, true);
    assert Sum(payload + [d], false) == DigitValue(d) + x;
  }

  /** Doubling with the 9-reduction sends the ten digits to ten distinct values. */
  lemma ContributionInjective(a: int, b: int, doubled: bool)
    requires 0 <= a <= 9 && 0 <= b <= 9 && a != b
    ensures 0 <= Contribution(a, doubled) <= 9 && 0 <= Contribution(b, doubled) <= 9
    ensures Contribution(a, doubled) != Contribution(b, doubled)
  {
  }

  /** The check detects every single-digit substitution: two numbers that differ in one
      digit are never both valid. */
  lemma DetectsSingleDigitError(a: string, x: char, y: char, b: string)
    requires IsDigit(x) && IsDigit(y) && x != y
    ensures !(Valid(a + [x] + b) && Valid(a + [y] + b))
  {
    var parity := |b| % 2 == 1;
    SumSplit(a + [x], b, false);
    SumSplit(a + [y], b, false);
    assert (a + [x])[..|a|] == a;
    assert (a + [y])[..|a|] == a;
    ContributionInjective(DigitValue(x), DigitValue(y), parity);
    var cx := Contribution(DigitValue(x), parity);
    var cy := Contribution(DigitValue(y), parity);
    var rest := Sum(b, false) + Sum(a, !parity);
    assert Sum(a + [x] + b, false) == rest + cx;
    assert Sum(a + [y] + b, false) == rest + cy;
    DistinctResidues(rest, cx, cy);
  }

  lemma DistinctResidues(rest: int, cx: int, cy: int)
    requires 0 <= cx <= 9 && 0 <= cy <= 9 && cx != cy
    ensures !((rest + cx) % 10 == 0 && (rest + cy) % 10 == 0)
  {
  }
}

=== FILE: product_route.dfy ===
/**
 * The product page route: a product's id becomes a decimal route parameter (the
 * first eight dash-free characters of the id read in hexadecimal), and the product
 * page turns the parameter back into eight hexadecimal characters and looks the
 * product up in the catalog.
 */
module ProductRoute {
  import opened Wrappers
  import opened Text
  import opened Radix
  import CartStore

  type Product = CartStore.Product

  function NotDash(c: char): bool {
    c != '-'
  }

  /** `id.replace(/-/g, '')`. */
  function StripDashes(s: string): (r: string)
    ensures '-' !in r
  {
    Filter(s, NotDash)
  }

  /** `id.replace(/-/g, '').substring(0, 8)`: the part of an id the route carries. */
  function RoutePrefix(id: string): (r: string)
    ensures |r| <= 8 && '-' !in r
  {
    var s := StripDashes(id);
    var r := Take(s, 8);
    assert forall c :: c in r ==> c in s by {
      forall c | c in r ensures c in s {
        var i :| 0 <= i < |r| && r[i] == c;
        assert s[i] == c;
      }
    }
    r
  }

  /** `numericId`: the prefix read in radix 16. */
  function NumericId(id: string): Option<int> {
    ParseInt(RoutePrefix(id), 16)
  }

  /** The `:id` segment of the link `/product/${numericId}`. */
  function RouteParam(id: string): string {
    NumberToString(NumericId(id), 10)
  }

  /** `productIdString`: the parameter read as a number, written in hexadecimal and
      padded with zeros to eight characters; the empty string when the parameter is
      missing or empty. */
  function LookupKey(param: Option<string>): string {
    if param.None? || param.value == "" then ""
    else PadStartZero(NumberToString(ParseInt(param.value, 0), 16), 8)
  }

  /** The position of the first catalog product whose prefix is `key`, or the length
      of the catalog when there is none. */
  function FindIndex(catalog: seq<Product>, key: string): (i: nat)
    ensures i <= |catalog|
    ensures i < |catalog| ==> RoutePrefix(catalog[i].id) == key
    ensures forall j :: 0 <= j < i ==> RoutePrefix(catalog[j].id) != key
    decreases |catalog|
  {
    if catalog == [] then 0
    else if RoutePrefix(catalog[0].id) == key then 0
    else 1 + FindIndex(catalog[1..], key)
  }

  /** `products.find(...)` on the key; `None` takes the not-found branch. */
  function FindProduct(catalog: seq<Product>, key: string): (r: Option<Product>)
    ensures r.Some? <==> exists p :: p in catalog && RoutePrefix(p.id) == key
    ensures r.Some? ==> r.value in catalog && RoutePrefix(r.value.id) == key
  {
    var i := FindIndex(catalog, key);
    if i < |catalog| then Some(catalog[i]) else None
  }

  /** A key the lookup can reproduce: exactly eight lower-case hexadecimal digits. */
  predicate IsHexKey(s: string) {
    |s| == 8 && forall i :: 0 <= i < |s| ==> IsLowerHex(s[i])
  }

  // ---------------------------------------------------------------------------
  // The round trip

  /** A prefix of eight lower-case hexadecimal digits survives the trip through the
      decimal route parameter. */
  lemma HexKeyRoundTrip(id: string)
    requires IsHexKey(RoutePrefix(id))
    ensures LookupKey(Some(RouteParam(id))) == RoutePrefix(id)
  {
    var pre := RoutePrefix(id);
    ParseHexDigits(pre);
    var v := ValueOf(pre, 16);
    var param := RouteParam(id);
    assert param == NumberToString(Some(v as int), 10);
    DecimalRoundTrip(v);
    assert LowerDigits(pre, 16);
    LookupOfValue(param, v, pre);
  }

  /** A parameter reading as the value of eight lower-case hexadecimal digits looks up
      those digits. */
  lemma LookupOfValue(param: string, v: nat, pre: string)
    requires param != "" && ParseInt(param, 0) == Some(v as int)
    requires |pre| == 8 && LowerDigits(pre, 16) && ValueOf(pre, 16) == v
    ensures LookupKey(Some(param)) == pre
  {
    assert NumberToString(Some(v as int), 16) == ToBase(v, 16);
    PaddedToBaseOfValue(pre, 16);
  }

  /** `parseInt` in radix 16 reads text starting with two zeros as a number, not as
      Not-a-Number: the two zeros rule out a `0x` prefix and are digits themselves. */
  lemma LeadingZerosParse(s: string)
    requires |s| >= 2 && s[0] == '0' && s[1] == '0'
    ensures ParseInt(s, 16).Some?
  {
    assert TrimStart(s) == s;
    assert IsRadixDigit(s[0], 16);
    assert DigitRun(s, 16) != [];
  }

  /** A key the lookup rebuilds from a non-negative number is at least eight
      lower-case hexadecimal digits. */
  lemma PaddedHexShape(v: nat)
    ensures var k := PadStartZero(ToBase(v, 16), 8);
      |k| >= 8 && forall i :: 0 <= i < |k| ==> IsLowerHex(k[i])
  {
    var b := ToBase(v, 16);
    var k := PadStartZero(b, 8);
    ToHexLower(v);
    forall i | 0 <= i < |k| ensures IsLowerHex(k[i]) {
      if i >= |k| - |b| {
        assert k[i] == k[|k| - |b|..][i - (|k| - |b|)];
      }
    }
  }

  /** A key rebuilt from a negative number carries a minus sign. */
  lemma PaddedNegativeHasMinus(v: int)
    requires v < 0
    ensures '-' in PadStartZero(NumberToString(Some(v), 16), 8)
  {
    var s := NumberToString(Some(v), 16);
    var k := PadStartZero(s, 8);
    assert k[|k| - |s|..][0] == '-';
  }

  /** The key rebuilt from the decimal text of Not-a-Number is "00000NaN", which is
      not a prefix any id can have: a prefix starting with two zeros reads as a number
      in radix 16. */
  lemma NotANumberKey()
    ensures var k := LookupKey(Some(NumberToString(None, 10)));
      |k| == 8 && k[0] == '0' && k[1] == '0'
  {
    var param := NumberToString(None, 10);
    NotANumberRoundTrip();
    var h := NumberToString(ParseInt(param, 0), 16);
    assert h == "NaN";
  }

  /** The key rebuilt from the decimal text of a negative number has a minus sign. */
  lemma NegativeKey(v: int)
    requires v < 0
    ensures '-' in LookupKey(Some(NumberToString(Some(v), 10)))
  {
    var param := NumberToString(Some(v), 10);
    DecimalRoundTrip(v);
    assert param != "";
    assert LookupKey(Some(param)) == PadStartZero(NumberToString(Some(v), 16), 8);
    PaddedNegativeHasMinus(v);
  }

  /** The key rebuilt from the decimal text of a non-negative number is at least eight
      lower-case hexadecimal digits. */
  lemma NonNegativeKey(v: int)
    requires v >= 0
    ensures var k := LookupKey(Some(NumberToString(Some(v), 10)));
      |k| >= 8 && forall i :: 0 <= i < |k| ==> IsLowerHex(k[i])
  {
    var param := NumberToString(Some(v), 10);
    DecimalRoundTrip(v);
    assert param != "";
    assert LookupKey(Some(param)) == PadStartZero(NumberToString(Some(v), 16), 8);
    assert NumberToString(Some(v), 16) == ToBase(v, 16);
    PaddedHexShape(v);
  }

  /** The prefix of a product id comes back from its route parameter exactly when it
      is eight lower-case hexadecimal digits: a shorter prefix, an upper-case letter
      or any other character breaks the round trip. */
  lemma RouteRoundTrip(id: string)
    ensures LookupKey(Some(RouteParam(id))) == RoutePrefix(id) <==> IsHexKey(RoutePrefix(id))
  {
    var pre := RoutePrefix(id);
    if IsHexKey(pre) {
      HexKeyRoundTrip(id);
    } else {
      var n := ParseInt(pre, 16);
      assert RouteParam(id) == NumberToString(n, 10);
      match n
      case None =>
        NotANumberKey();
        LeadingZerosParse(LookupKey(Some(RouteParam(id))));
      case Some(v) =>
        if v < 0 {
          NegativeKey(v);
        } else {
          NonNegativeKey(v);
        }
    }
  }

  /** Following the link of a product whose prefix is eight lower-case hexadecimal
      digits finds a product with that prefix: the product itself when no other
      catalog product shares the prefix. */
  lemma LinkFindsProduct(catalog: seq<Product>, p: Product)
    requires p in catalog && IsHexKey(RoutePrefix(p.id))
    ensures var r := FindProduct(catalog, LookupKey(Some(RouteParam(p.id))));
      r.Some? && RoutePrefix(r.value.id) == RoutePrefix(p.id)
    ensures (forall q :: q in catalog && RoutePrefix(q.id) == RoutePrefix(p.id) ==> q == p) ==>
      FindProduct(catalog, LookupKey(Some(RouteParam(p.id)))) == Some(p)
  {
    HexKeyRoundTrip(p.id);
  }

  /** A parameter whose value needs more than eight hexadecimal digits (16 to the
      power 8 or more) never finds a product. */
  lemma LargeValuesNotFound(catalog: seq<Product>, param: string, v: int)
    requires ParseInt(param, 0) == Some(v) && v >= Pow(16, 8)
    ensures FindProduct(catalog, LookupKey(Some(param))).None?
  {
    ToBaseLength(v, 16, 8);
    assert |LookupKey(Some(param))| > 8;
  }

  /** Without a parameter the key is empty, and only a product whose id is empty once
      its dashes are removed can match it. */
  lemma MissingParamKey(catalog: seq<Product>)
    ensures LookupKey(None) == "" && LookupKey(Some("")) == ""
    ensures FindProduct(catalog, LookupKey(None)).Some? ==>
      StripDashes(FindProduct(catalog, LookupKey(None)).value.id) == ""
  {
  }

  // ---------------------------------------------------------------------------
  // The quantity shown on the product page

  /** A JavaScript value as the strict equality of the cart lookup sees it: a string,
      or a number with Not-a-Number as `None`. */
  datatype JsValue = JsString(s: string) | JsNumber(n: Option<int>)

  /** `===`: values of different types are never equal, and Not-a-Number equals nothing. */
  predicate StrictEquals(a: JsValue, b: JsValue) {
    match (a, b)
    case (JsString(x), JsString(y)) => x == y
    case (JsNumber(Some(x)), JsNumber(Some(y))) => x == y
    case _ => false
  }

  /** `getItemQuantity(key)` for a key of any type: the quantity of the first line whose
      string id is strictly equal to the key, or 0. */
  function QuantityForValue(cart: seq<CartStore.CartLine>, key: JsValue): (q: int)
    ensures key.JsString? ==> q == CartStore.GetItemQuantity(cart, key.s)
    decreases |cart|
  {
    if cart == [] then 0
    else if StrictEquals(JsString(cart[0].product.id), key) then cart[0].quantity
    else QuantityForValue(cart[1..], key)
  }

  /** The quantity the product page shows, as written: the cart lookup is keyed by the
      route parameter read as a number. */
  function DisplayedQuantityAsWritten(cart: seq<CartStore.CartLine>, param: Option<string>): int {
    if param.None? || param.value == "" then 0
    else QuantityForValue(cart, JsNumber(ParseInt(param.value, 0)))
  }

  /** A number never strictly equals a string id, so the page shows 0 whatever the
      cart holds. */
  lemma {:induction false} NumberKeyFindsNothing(cart: seq<CartStore.CartLine>, n: Option<int>)
    ensures QuantityForValue(cart, JsNumber(n)) == 0
    decreases |cart|
  {
    if cart != [] {
      NumberKeyFindsNothing(cart[1..], n);
    }
  }

  lemma DisplayedQuantityAsWrittenIsZero(cart: seq<CartStore.CartLine>, param: Option<string>)
    ensures DisplayedQuantityAsWritten(cart, param) == 0
  {
    if param.Some? && param.value != "" {
      NumberKeyFindsNothing(cart, ParseInt(param.value, 0));
    }
  }

  /** The quantity the product page evidently means to show: the cart quantity of the
      product the page found, and 0 without a parameter or a product. */
  function DisplayedQuantity(catalog: seq<Product>, cart: seq<CartStore.CartLine>, param: Option<string>): (q: int)
    ensures param.None? ==> q == 0
  {
    if param.None? || param.value == "" then 0
    else match FindProduct(catalog, LookupKey(param))
      case None => 0
      case Some(p) => CartStore.GetItemQuantity(cart, p.id)
  }

  /** Reached through its link, a product whose prefix no other catalog product shares
      shows the quantity the cart holds for it. */
  lemma DisplayedQuantityShowsCart(catalog: seq<Product>, cart: seq<CartStore.CartLine>, p: Product)
    requires p in catalog && IsHexKey(RoutePrefix(p.id))
    requires forall q :: q in catalog && RoutePrefix(q.id) == RoutePrefix(p.id) ==> q == p
    requires CartStore.UniqueIds(cart)
    ensures DisplayedQuantity(catalog, cart, Some(RouteParam(p.id))) == CartStore.QuantityOf(cart, p.id)
  {
    LinkFindsProduct(catalog, p);
  }

  /** Whenever the cart holds a non-zero quantity of such a product, the page as written
      shows a different number from the one it means to show. */
  lemma AsWrittenMissesCartQuantity(catalog: seq<Product>, cart: seq<CartStore.CartLine>, p: Product)
    requires p in catalog && IsHexKey(RoutePrefix(p.id))
    requires forall q :: q in catalog && RoutePrefix(q.id) == RoutePrefix(p.id) ==> q == p
    requires CartStore.UniqueIds(cart) && CartStore.QuantityOf(cart, p.id) != 0
    ensures DisplayedQuantityAsWritten(cart, Some(RouteParam(p.id))) == 0
    ensures DisplayedQuantity(catalog, cart, Some(RouteParam(p.id))) != 0
  {
    DisplayedQuantityAsWrittenIsZero(cart, Some(RouteParam(p.id)));
    DisplayedQuantityShowsCart(catalog, cart, p);
  }
}

=== FILE: radix.dfy ===
/**
 * Integers written in a radix: the `parseInt` function and `Number#toString(radix)`
 * of ECMAScript, restricted to integer values. Not-a-Number is `None`.
 */
module Radix {
  import opened Wrappers
  import opened Text

  /** The value of a character read as a digit of a radix up to 36: `0`-`9`, then the
      letters in either case for 10 to 35; -1 for any other character. */
  function CharValue(c: char): int {
    if '0' <= c <= '9' then c as int - '0' as int
    else if 'a' <= c <= 'z' then c as int - 'a' as int + 10
    else if 'A' <= c <= 'Z' then c as int - 'A' as int + 10
    else -1
  }

  predicate IsRadixDigit(c: char, r: int) {
    0 <= CharValue(c) < r
  }

  predicate AllRadixDigits(s: string, r: int) {
    forall i :: 0 <= i < |s| ==> IsRadixDigit(s[i], r)
  }

  /** The digit `Number#toString` writes for the value d: lower-case letters above 9. */
  function DigitChar(d: nat): (c: char)
    requires d < 36
    ensures CharValue(c) == d
    ensures !IsUpper(c)
  {
    if d < 10 then ('0' as int + d) as char else ('a' as int + d - 10) as char
  }

  /** A lower-case hexadecimal digit. */
  predicate IsLowerHex(c: char) {
    '0' <= c <= '9' || 'a' <= c <= 'f'
  }

  predicate IsUpper(c: char) {
    'A' <= c <= 'Z'
  }

  /** Digits written the way `Number#toString` writes them: no upper-case letter. */
  predicate LowerDigits(s: string, r: int) {
    AllRadixDigits(s, r) && forall i :: 0 <= i < |s| ==> !IsUpper(s[i])
  }

  /** A digit that is not an upper-case letter is the digit written for its value. */
  lemma DigitCharOfValue(c: char)
    requires 0 <= CharValue(c) < 36 && !IsUpper(c)
    ensures DigitChar(CharValue(c)) == c
  {
  }

  /** The radices the route code writes numbers in: decimal and hexadecimal. */
  predicate Supported(r: nat) {
    r == 10 || r == 16
  }

  function Pow(b: nat, n: nat): (p: nat)
    ensures b >= 1 ==> p >= 1
  {
    if n == 0 then 1 else b * Pow(b, n - 1)
  }

  /** The value of a digit string in radix r, most significant digit first. */
  function ValueOf(s: string, r: nat): nat
    requires AllRadixDigits(s, r)
  {
    if s == [] then 0 else ValueOf(s[..|s| - 1], r) * r + CharValue(s[|s| - 1])
  }

  /** `Number#toString(r)` of a non-negative integer: the shortest digit string, in
      lower case, whose value is v. */
  function ToBase(v: nat, r: nat): (s: string)
    requires Supported(r)
    ensures |s| >= 1
    ensures LowerDigits(s, r)
    ensures |s| > 1 ==> s[0] != '0'
    decreases v
  {
    if v < r then [DigitChar(v)]
    else
      DivMod(v, r);
      ToBase(v / r, r) + [DigitChar(v % r)]
  }

  /** Division by the radix: quotient and remainder, and the quotient is smaller. */
  lemma DivMod(v: nat, r: nat)
    requires Supported(r) && r <= v
    ensures 1 <= v / r < v && 0 <= v % r < r
    ensures v == v / r * r + v % r
  {
    if r == 10 {
    } else {
    }
  }

  /** Quotient and remainder are the only ones: a value written as q * r + m with
      0 <= m < r has quotient q and remainder m. */
  lemma DivUnique(v: nat, r: nat, q: nat, m: nat)
    requires Supported(r) && m < r && v == q * r + m
    ensures v / r == q && v % r == m
  {
    if r == 10 {
    } else {
    }
  }

  /** Comparing a quotient with p is comparing the dividend with p * r. */
  lemma DivAtLeast(v: nat, r: nat, p: nat)
    requires Supported(r)
    ensures v / r >= p <==> v >= p * r
  {
    if r == 10 {
    } else {
    }
  }

  /** The digits `ToBase` writes have the value they were written for. */
  lemma {:induction false} ToBaseValue(v: nat, r: nat)
    requires Supported(r)
    ensures ValueOf(ToBase(v, r), r) == v
    decreases v
  {
    if v >= r {
      DivMod(v, r);
      var p := ToBase(v / r, r);
      var s := ToBase(v, r);
      assert s == p + [DigitChar(v % r)];
      assert s[..|s| - 1] == p;
      ToBaseValue(v / r, r);
      assert ValueOf(s, r) == ValueOf(p, r) * r + v % r;
    }
  }

  /** A leading zero does not change the value. */
  lemma {:induction false} ValueOfLeadingZero(t: string, r: nat)
    requires r >= 2 && AllRadixDigits(t, r)
    ensures AllRadixDigits("0" + t, r)
    ensures ValueOf("0" + t, r) == ValueOf(t, r)
    decreases |t|
  {
    var s := "0" + t;
    if t != [] {
      var p := t[..|t| - 1];
      assert s[..|s| - 1] == "0" + p;
      ValueOfLeadingZero(p, r);
    }
  }

  /** A digit string that does not start with a zero has a value of at least 1. */
  lemma {:induction false} ValueOfPositive(s: string, r: nat)
    requires r >= 2 && AllRadixDigits(s, r) && s != [] && CharValue(s[0]) >= 1
    ensures ValueOf(s, r) >= 1
    decreases |s|
  {
    var p := s[..|s| - 1];
    if |s| > 1 {
      assert p[0] == s[0];
      ValueOfPositive(p, r);
      MulAtLeast(ValueOf(p, r), r);
    }
  }

  lemma {:induction false} MulAtLeast(a: nat, b: nat)
    requires a >= 1
    ensures a * b >= b
    decreases a
  {
    if a > 1 {
      MulAtLeast(a - 1, b);
      assert a * b == (a - 1) * b + b;
    }
  }

  /** Written the way `Number#toString` writes numbers, a digit string is the digit
      string of its value. */
  lemma {:induction false} ToBaseOfValue(s: string, r: nat)
    requires Supported(r)
    requires LowerDigits(s, r) && |s| >= 1 && (|s| > 1 ==> s[0] != '0')
    ensures ToBase(ValueOf(s, r), r) == s
    decreases |s|
  {
    if |s| > 1 {
      var p, c := s[..|s| - 1], s[|s| - 1];
      assert s == p + [c];
      assert p[0] == s[0];
      ValueOfPositive(p, r);
      ToBaseOfValue(p, r);
      ToBaseAppend(ValueOf(p, r), c, r, p, ValueOf(s, r));
    }
  }

  /** Appending a digit to the digit string of a positive q writes q * r plus that
      digit's value. */
  lemma ToBaseAppend(q: nat, c: char, r: nat, p: string, v: nat)
    requires Supported(r) && q >= 1 && ToBase(q, r) == p
    requires 0 <= CharValue(c) < r && !IsUpper(c) && v == q * r + CharValue(c)
    ensures ToBase(v, r) == p + [c]
  {
    DivUnique(v, r, q, CharValue(c));
    MulAtLeast(q, r);
    DigitCharOfValue(c);
  }

  /** Left-padding with zeros to the length of a lower-case digit string gives that
      string back, leading zeros included. */
  lemma {:induction false} PaddedToBaseOfValue(s: string, r: nat)
    requires Supported(r)
    requires LowerDigits(s, r) && |s| >= 1
    ensures PadStartZero(ToBase(ValueOf(s, r), r), |s|) == s
    decreases |s|
  {
    if |s| > 1 && s[0] == '0' {
      var t := s[1..];
      assert s == "0" + t;
      ValueOfLeadingZero(t, r);
      PaddedToBaseOfValue(t, r);
      var b := ToBase(ValueOf(t, r), r);
      PadOneMore(b, |t|);
    } else {
      ToBaseOfValue(s, r);
    }
  }

  /** Padding to one more character puts one more zero in front. */
  lemma PadOneMore(b: string, n: nat)
    requires |b| <= n
    ensures PadStartZero(b, n + 1) == "0" + PadStartZero(b, n)
  {
    ZerosCons(n - |b|);
    if |b| == n {
      assert PadStartZero(b, n) == b;
      assert Zeros(0) == "";
    }
  }

  lemma ZerosCons(k: nat)
    ensures Zeros(k + 1) == "0" + Zeros(k)
  {
    var a, b := Zeros(k + 1), "0" + Zeros(k);
    assert forall i :: 0 <= i < k + 1 ==> a[i] == b[i];
  }

  /** Values from r to the power n up need more than n digits; smaller values need at
      most n. */
  lemma {:induction false} ToBaseLength(v: nat, r: nat, n: nat)
    requires Supported(r) && n >= 1
    ensures |ToBase(v, r)| > n <==> v >= Pow(r, n)
    decreases n
  {
    if v < r {
      PowAtLeastBase(r, n);
    } else if n > 1 {
      DivMod(v, r);
      ToBaseLength(v / r, r, n - 1);
      DivAtLeast(v, r, Pow(r, n - 1));
    }
  }

  lemma {:induction false} PowAtLeastBase(r: nat, n: nat)
    requires r >= 2 && n >= 1
    ensures Pow(r, n) >= r
    decreases n
  {
    if n > 1 {
      PowAtLeastBase(r, n - 1);
    }
  }

  // ---------------------------------------------------------------------------
  // parseInt

  /** The longest prefix of s made of digits of radix r. */
  function DigitRun(s: string, r: int): (z: string)
    ensures z <= s
    ensures AllRadixDigits(z, r)
    ensures |z| < |s| ==> !IsRadixDigit(s[|z|], r)
  {
    if s == [] || !IsRadixDigit(s[0], r) then [] else [s[0]] + DigitRun(s[1..], r)
  }

  lemma DigitRunAll(s: string, r: int)
    requires AllRadixDigits(s, r)
    ensures DigitRun(s, r) == s
  {
  }

  /** The unsigned part of `parseInt` once space and sign are gone: for radix 0 or 16
      a `0x` or `0X` prefix selects radix 16, absent any prefix radix 0 reads decimal,
      and the longest run of digits is read; no digit at all is Not-a-Number. */
  function ReadDigits(u: string, radix: int): Option<nat>
    requires radix == 0 || 2 <= radix <= 36
  {
    var hexPrefix := (radix == 0 || radix == 16) && |u| >= 2 && u[0] == '0' && (u[1] == 'x' || u[1] == 'X');
    var r := if hexPrefix then 16 else if radix == 0 then 10 else radix;
    var z := DigitRun(if hexPrefix then u[2..] else u, r);
    if z == [] then None else Some(ValueOf(z, r))
  }

  /** `parseInt(s, radix)`, where a radix of 0 stands for an absent one: leading white
      space is skipped and the rest read as a signed number; a radix outside 2..36
      gives Not-a-Number. */
  function ParseInt(s: string, radix: int): Option<int> {
    if radix != 0 && (radix < 2 || radix > 36) then None
    else ParseSigned(TrimStart(s), radix)
  }

  /** The text after the white space: one optional sign, then the unsigned reading. */
  function ParseSigned(t: string, radix: int): Option<int>
    requires radix == 0 || 2 <= radix <= 36
  {
    var negative := |t| > 0 && t[0] == '-';
    var u := if |t| > 0 && (t[0] == '+' || t[0] == '-') then t[1..] else t;
    match ReadDigits(u, radix)
    case None => None
    case Some(v) => Some(if negative then -(v as int) else v)
  }

  /** `String(n)` and `n.toString(r)` for an integer Number, "NaN" for Not-a-Number. */
  function NumberToString(n: Option<int>, r: nat): (s: string)
    requires Supported(r)
    ensures s != ""
  {
    match n
    case None => "NaN"
    case Some(v) => if v < 0 then "-" + ToBase(-v, r) else ToBase(v, r)
  }

  /** Digits of the radix `parseInt` reads, with no space, sign or prefix in front,
      read as their value; with a minus sign in front, as its negation. */
  lemma ReadAllDigits(d: string, radix: int, r: nat)
    requires (radix == 0 && r == 10) || (radix == 16 && r == 16)
    requires d != [] && AllRadixDigits(d, r)
    ensures ReadDigits(d, radix) == Some(ValueOf(d, r))
  {
    NoHexPrefix(d, r);
    DigitRunAll(d, r);
    if radix == 0 {
      ReadDigitsPlain(d, radix, 10);
    } else {
      ReadDigitsPlain(d, radix, 16);
    }
  }

  /** A string of decimal or hexadecimal digits does not start with `0x` or `0X`. */
  lemma NoHexPrefix(d: string, r: nat)
    requires r <= 16 && AllRadixDigits(d, r)
    ensures !(|d| >= 2 && d[0] == '0' && (d[1] == 'x' || d[1] == 'X'))
  {
    if |d| >= 2 {
      assert IsRadixDigit(d[1], r);
    }
  }

  /** Without a `0x` prefix, `parseInt` reads the digit run in the radix given, or in
      decimal when none is. */
  lemma ReadDigitsPlain(d: string, radix: int, r: nat)
    requires (radix == 0 && r == 10) || (radix == 16 && r == 16)
    requires !(|d| >= 2 && d[0] == '0' && (d[1] == 'x' || d[1] == 'X'))
    requires d != [] && AllRadixDigits(d, r) && DigitRun(d, r) == d
    ensures ReadDigits(d, radix) == Some(ValueOf(d, r))
  {
  }

  /** With no space and no sign in front, `parseInt` is the unsigned reading. */
  lemma ParseUnsigned(u: string, radix: int)
    requires radix == 0 || radix == 16
    requires u != [] && !IsSpace(u[0]) && u[0] != '-' && u[0] != '+'
    ensures ParseInt(u, radix) == match ReadDigits(u, radix)
      case None => None
      case Some(v) => Some(v as int)
  {
    assert TrimStart(u) == u;
  }

  /** With a minus sign in front, `parseInt` negates the unsigned reading. */
  lemma ParseMinus(u: string, radix: int, v: nat)
    requires radix == 0 || radix == 16
    requires ReadDigits(u, radix) == Some(v)
    ensures ParseInt("-" + u, radix) == Some(-(v as int))
  {
    var n := "-" + u;
    assert n[0] == '-' && n[1..] == u;
    assert TrimStart(n) == n;
    ParseSignedMinus(n, u, radix, v);
  }

  lemma ParseSignedMinus(t: string, u: string, radix: int, v: nat)
    requires radix == 0 || radix == 16
    requires |t| > 0 && t[0] == '-' && t[1..] == u && ReadDigits(u, radix) == Some(v)
    ensures ParseSigned(t, radix) == Some(-(v as int))
  {
  }

  lemma ParseIntDigits(d: string, radix: int, r: nat)
    requires (radix == 0 && r == 10) || (radix == 16 && r == 16)
    requires d != [] && AllRadixDigits(d, r)
    ensures ParseInt(d, radix) == Some(ValueOf(d, r))
  {
    assert IsRadixDigit(d[0], r);
    ParseUnsigned(d, radix);
    ReadAllDigits(d, radix, r);
  }

  /** Reading back the decimal text of an integer, as `parseInt` without a radix does,
      gives the integer back. */
  lemma DecimalRoundTrip(v: int)
    ensures ParseInt(NumberToString(Some(v), 10), 0) == Some(v)
  {
    if v < 0 {
      NegativeRoundTrip(v, NumberToString(Some(v), 10));
    } else {
      NonNegativeRoundTrip(v, NumberToString(Some(v), 10));
    }
  }

  lemma NegativeRoundTrip(v: int, text: string)
    requires v < 0 && text == NumberToString(Some(v), 10)
    ensures ParseInt(text, 0) == Some(v)
  {
    var n: nat := -v;
    var d := ToBase(n, 10);
    assert text == "-" + d;
    ToBaseValue(n, 10);
    ParseNegative(d, n, text);
  }

  lemma NonNegativeRoundTrip(v: int, text: string)
    requires v >= 0 && text == NumberToString(Some(v), 10)
    ensures ParseInt(text, 0) == Some(v)
  {
    assert text == ToBase(v, 10);
    ToBaseValue(v, 10);
    ParseIntDigits(text, 0, 10);
  }

  /** Decimal digits of value n behind a minus sign read as -n. */
  lemma ParseNegative(d: string, n: nat, text: string)
    requires d != [] && AllRadixDigits(d, 10) && ValueOf(d, 10) == n && text == "-" + d
    ensures ParseInt(text, 0) == Some(-(n as int))
  {
    ReadAllDigits(d, 0, 10);
    ParseMinus(d, 0, n);
  }

  /** The text "NaN" reads as Not-a-Number. */
  lemma NotANumberRoundTrip()
    ensures ParseInt(NumberToString(None, 10), 0) == None
  {
    var s := NumberToString(None, 10);
    assert s[0] == 'N' && !IsSpace(s[0]);
    assert TrimStart(s) == s;
    assert !IsRadixDigit(s[0], 10);
    assert ReadDigits(s, 0) == None;
    assert ParseSigned(s, 0) == None;
  }

  /** Lower-case hexadecimal digits read, in radix 16, as their value. */
  lemma ParseHexDigits(s: string)
    requires s != [] && forall i :: 0 <= i < |s| ==> IsLowerHex(s[i])
    ensures AllRadixDigits(s, 16)
    ensures ParseInt(s, 16) == Some(ValueOf(s, 16))
  {
    assert AllRadixDigits(s, 16);
    ParseIntDigits(s, 16, 16);
  }

  /** The hexadecimal text of a non-negative integer is made of lower-case hexadecimal
      digits. */
  lemma ToHexLower(v: nat)
    ensures forall i :: 0 <= i < |ToBase(v, 16)| ==> IsLowerHex(ToBase(v, 16)[i])
  {
    var s := ToBase(v, 16);
    forall i | 0 <= i < |s| ensures IsLowerHex(s[i]) {
      assert s[i] == DigitChar(CharValue(s[i]));
    }
  }
}

=== FILE: text.dfy ===
/**
 * Character classes and string helpers shared by the validators, the formatters
 * and the route encoding. Strings are sequences of characters; the regular
 * expressions of the source become explicit character predicates here.
 */
module Text {

  /** The ECMAScript WhiteSpace and LineTerminator code points: what the regular
      expression class `\s` matches and what `String.prototype.trim` removes. */
  predicate IsSpace(c: char) {
    || c == '\t' || c == '\n' || c == '\U{000B}' || c == '\U{000C}' || c == '\r' || c == ' '
    || c == '\U{00A0}' || c == '\U{1680}' || ('\U{2000}' <= c <= '\U{200A}')
    || c == '\U{2028}' || c == '\U{2029}' || c == '\U{202F}' || c == '\U{205F}'
    || c == '\U{3000}' || c == '\U{FEFF}'
  }

  /** The class `\d`: ASCII decimal digits only. */
  predicate IsDigit(c: char) {
    '0' <= c <= '9'
  }

  predicate AllDigits(s: string) {
    forall i :: 0 <= i < |s| ==> IsDigit(s[i])
  }

  predicate NoSpace(s: string) {
    forall i :: 0 <= i < |s| ==> !IsSpace(s[i])
  }

  predicate AllSpace(s: string) {
    forall i :: 0 <= i < |s| ==> IsSpace(s[i])
  }

  /** Value of an ASCII decimal digit, as `parseInt` of a one-character string. */
  function DigitValue(c: char): int {
    c as int - '0' as int
  }

  /** `s.replace(/[class]/g, '')`: the characters of `s` that `keep` accepts, in order. */
  function Filter(s: string, keep: char -> bool): (r: string)
    ensures |r| <= |s|
    ensures forall i :: 0 <= i < |r| ==> keep(r[i])
  {
    if s == [] then []
    else (if keep(s[0]) then [s[0]] else []) + Filter(s[1..], keep)
  }

  /** Every character of a filtered string comes from the original. */
  lemma {:induction false} FilterFrom(s: string, keep: char -> bool)
    ensures forall c :: c in Filter(s, keep) ==> c in s
  {
    if s != [] {
      FilterFrom(s[1..], keep);
      forall c | c in Filter(s[1..], keep) ensures c in s {
        assert c in s[1..];
        var k :| 0 <= k < |s[1..]| && s[1..][k] == c;
        assert s[k + 1] == c;
      }
    }
  }

  lemma {:induction false} FilterAppend(a: string, b: string, keep: char -> bool)
    ensures Filter(a + b, keep) == Filter(a, keep) + Filter(b, keep)
  {
    if a == [] {
      assert a + b == b;
    } else {
      assert (a + b)[1..] == a[1..] + b;
      FilterAppend(a[1..], b, keep);
    }
  }

  /** Filtering a string whose every character is kept changes nothing. */
  lemma {:induction false} FilterKeepsAll(s: string, keep: char -> bool)
    requires forall i :: 0 <= i < |s| ==> keep(s[i])
    ensures Filter(s, keep) == s
  {
    if s != [] {
      FilterKeepsAll(s[1..], keep);
    }
  }

  /** Filtering a string none of whose characters is kept yields the empty string. */
  lemma {:induction false} FilterDropsAll(s: string, keep: char -> bool)
    requires forall i :: 0 <= i < |s| ==> !keep(s[i])
    ensures Filter(s, keep) == ""
  {
    if s != [] {
      FilterDropsAll(s[1..], keep);
    }
  }

  /** Filtering is idempotent. */
  lemma FilterIdempotent(s: string, keep: char -> bool)
    ensures Filter(Filter(s, keep), keep) == Filter(s, keep)
  {
    FilterKeepsAll(Filter(s, keep), keep);
  }

  /** `s.substring(0, n)` for n >= 0: the first n characters, or all of them. */
  function Take(s: string, n: nat): (r: string)
    ensures |r| == if |s| < n then |s| else n
    ensures r <= s
  {
    if |s| <= n then s else s[..n]
  }

  /** `s.substring(i, j)` for 0 <= i <= j, both clamped to the length. */
  function Slice(s: string, i: nat, j: nat): (r: string)
    requires i <= j
    ensures |r| <= j - i
  {
    if |s| <= i then "" else if |s| <= j then s[i..] else s[i..j]
  }

  /** `s.padStart(n, '0')`. */
  function PadStartZero(s: string, n: nat): (r: string)
    ensures |r| == if |s| < n then n else |s|
    ensures forall i :: 0 <= i < |r| - |s| ==> r[i] == '0'
    ensures r[|r| - |s|..] == s
  {
    if |s| < n then Zeros(n - |s|) + s else s
  }

  function Zeros(n: nat): (r: string)
    ensures |r| == n
    ensures forall i :: 0 <= i < n ==> r[i] == '0'
  {
    if n == 0 then "" else Zeros(n - 1) + "0"
  }

  /** `s.trimStart()`. */
  function TrimStart(s: string): (r: string)
    ensures |r| <= |s| && r == s[|s| - |r|..]
    ensures forall k :: 0 <= k < |s| - |r| ==> IsSpace(s[k])
    ensures r != "" ==> !IsSpace(r[0])
  {
    if s == [] || !IsSpace(s[0]) then s else TrimStart(s[1..])
  }

  /** `s.trimEnd()`. */
  function TrimEnd(s: string): (r: string)
    ensures |r| <= |s| && r == s[..|r|]
    ensures forall k :: |r| <= k < |s| ==> IsSpace(s[k])
    ensures r != "" ==> !IsSpace(r[|r| - 1])
  {
    if s == [] || !IsSpace(s[|s| - 1]) then s else TrimEnd(s[..|s| - 1])
  }

  /** `s.trim()`. */
  function Trim(s: string): string {
    TrimEnd(TrimStart(s))
  }

  /** `!s.trim()`: the value is empty once surrounding white space is removed. */
  predicate Blank(s: string) {
    Trim(s) == ""
  }

  /** `t` occurs in `s` with nothing but white space before and after it. */
  predicate SpaceAround(t: string, s: string) {
    exists i :: 0 <= i <= |s| - |t| && t == s[i..i + |t|]
      && AllSpace(s[..i]) && AllSpace(s[i + |t|..])
  }

  /** Trimming keeps a contiguous middle part of the string that neither starts nor ends
      with white space, and drops only white space around it. */
  lemma TrimSlice(s: string)
    ensures var t := Trim(s);
      && SpaceAround(t, s)
      && (t != "" ==> !IsSpace(t[0]) && !IsSpace(t[|t| - 1]))
  {
    TrimInside(s);
    TrimEdges(s);
  }

  /** The trimmed value sits in the string with only white space on either side. */
  lemma TrimInside(s: string)
    ensures SpaceAround(Trim(s), s)
  {
    var a := TrimStart(s);
    var t := Trim(s);
    TrimPlace(s, a, t);
  }

  /** The trimmed value neither starts nor ends with white space. */
  lemma TrimEdges(s: string)
    ensures var t := Trim(s); t != "" ==> !IsSpace(t[0]) && !IsSpace(t[|t| - 1])
  {
    var a := TrimStart(s);
    var t := Trim(s);
    TrimEnds(a, t);
  }

  /** A prefix `t` of the suffix `a` of `s`, with only white space before `a` and after
      `t`, is a middle part of `s` surrounded by white space. */
  lemma TrimPlace(s: string, a: string, t: string)
    requires |a| <= |s| && a == s[|s| - |a|..]
    requires forall k :: 0 <= k < |s| - |a| ==> IsSpace(s[k])
    requires |t| <= |a| && t == a[..|t|]
    requires forall k :: |t| <= k < |a| ==> IsSpace(a[k])
    ensures SpaceAround(t, s)
  {
    var i := |s| - |a|;
    SuffixParts(s, i, a, t);
    assert AllSpace(s[..i]);
  }

  /** A prefix of a string that does not start with white space, itself not ending
      with white space, neither starts nor ends with it. */
  lemma TrimEnds(a: string, t: string)
    requires |t| <= |a| && t == a[..|t|] && (a != "" ==> !IsSpace(a[0]))
    requires t != "" ==> !IsSpace(t[|t| - 1])
    ensures t != "" ==> !IsSpace(t[0]) && !IsSpace(t[|t| - 1])
  {
    if t != "" {
      assert t[0] == a[0];
    }
  }

  /** A prefix `t` of the suffix `a` of `s` sits at `i` in `s`, and what follows it in
      `a` is what follows it in `s`. */
  lemma SuffixParts(s: string, i: nat, a: string, t: string)
    requires i <= |s| && a == s[i..] && |t| <= |a| && t == a[..|t|]
    requires forall k :: |t| <= k < |a| ==> IsSpace(a[k])
    ensures i + |t| <= |s| && t == s[i..i + |t|] && AllSpace(s[i + |t|..])
  {
    forall k | i + |t| <= k < |s| ensures IsSpace(s[k]) {
      assert s[k] == a[k - i];
    }
  }

  /** A value is blank exactly when it consists of white space alone. */
  lemma BlankIffAllSpace(s: string)
    ensures Blank(s) <==> AllSpace(s)
  {
    var a := TrimStart(s);
    if Trim(s) == "" {
      assert AllSpace(a) by {
        assert a[0..] == a;
      }
      assert a == "";
      assert s == s[..|s|];
    }
  }

  /** A string with a character outside white space is not blank. */
  lemma NotBlankWhenNonSpace(s: string, k: nat)
    requires k < |s| && !IsSpace(s[k])
    ensures !Blank(s)
  {
    BlankIffAllSpace(s);
  }

  function NotSpace(c: char): bool {
    !IsSpace(c)
  }

  /** `s.replace(/\s/g, '')`. */
  function StripSpaces(s: string): (r: string)
    ensures NoSpace(r)
  {
    Filter(s, NotSpace)
  }

  /** `s.replace(/\D/g, '')`. */
  function KeepDigits(s: string): (r: string)
    ensures AllDigits(r)
  {
    Filter(s, IsDigit)
  }
}

=== FILE: validation.dfy ===
/**
 * The checkout field validators and `validateCheckoutForm`. Each regular expression
 * of the source is an explicit character predicate; the current date the expiry
 * check reads is a parameter.
 */
module Validation {
  import opened Wrappers
  import opened Text
  import opened Form
  import Luhn

  // ---------------------------------------------------------------------------
  // EMAIL_REGEX = /^[^\s@]+@[^\s@]+\.[^\s@]+$/

  /** The class `[^\s@]`. */
  predicate Plain(c: char) {
    !IsSpace(c) && c != '@'
  }

  predicate AllPlain(s: string) {
    forall i :: 0 <= i < |s| ==> Plain(s[i])
  }

  /** What the e-mail pattern matches, read as a regular expression: a non-empty plain
      run, `@`, a non-empty plain run, `.`, and a non-empty plain run. */
  ghost predicate EmailPattern(s: string) {
    exists i, j ::
      && 0 < i && i + 1 < j && j + 1 < |s|
      && s[i] == '@' && s[j] == '.'
      && AllPlain(s[..i]) && AllPlain(s[i + 1..j]) && AllPlain(s[j + 1..])
  }

  /** `s.indexOf(c)`, with `|s|` for "absent". */
  function IndexOfChar(s: string, c: char): (i: nat)
    ensures i <= |s|
    ensures i < |s| ==> s[i] == c
    ensures forall k :: 0 <= k < i ==> s[k] != c
  {
    if s == [] then 0 else if s[0] == c then 0 else 1 + IndexOfChar(s[1..], c)
  }

  /** The domain holds a `.` that is neither its first nor its last character. */
  predicate HasInnerDot(d: string) {
    exists k :: 0 < k < |d| - 1 && d[k] == '.'
  }

  /** The e-mail check as a decision: no white space, exactly one `@`, a non-empty local
      part, and an inner `.` in the domain. */
  predicate IsEmail(s: string) {
    && NoSpace(s)
    && var i := IndexOfChar(s, '@');
       && 0 < i < |s|
       && IndexOfChar(s[i + 1..], '@') == |s| - i - 1
       && HasInnerDot(s[i + 1..])
  }

  /** A decided e-mail address matches the regular expression. */
  lemma EmailDecisionMatches(s: string)
    requires IsEmail(s)
    ensures EmailPattern(s)
  {
    var i := IndexOfChar(s, '@');
    var d := s[i + 1..];
    var k :| 0 < k < |d| - 1 && d[k] == '.';
    var j := i + 1 + k;
    assert forall m :: 0 <= m < |d| ==> d[m] == s[i + 1 + m];
    var head, mid, tail := s[..i], s[i + 1..j], s[j + 1..];
    assert s[j] == '.';
    forall m | 0 <= m < |head| ensures Plain(head[m]) {
      assert head[m] == s[m];
    }
    forall m | 0 <= m < |mid| ensures Plain(mid[m]) {
      assert mid[m] == d[m];
    }
    forall m | 0 <= m < |tail| ensures Plain(tail[m]) {
      assert tail[m] == d[k + 1 + m];
    }
  }

  /** A string the regular expression matches passes the decision. */
  lemma EmailPatternDecides(s: string)
    requires EmailPattern(s)
    ensures IsEmail(s)
  {
    var i, j :| && 0 < i && i + 1 < j && j + 1 < |s|
                && s[i] == '@' && s[j] == '.'
                && AllPlain(s[..i]) && AllPlain(s[i + 1..j]) && AllPlain(s[j + 1..]);
    PlainAround(s, i, j);
    var d := s[i + 1..];
    DomainOfMatch(s, i, j, d);
    assert IndexOfChar(s, '@') == i;
  }

  /** Around the `@` of a match there is neither white space nor another `@`. */
  lemma PlainAround(s: string, i: nat, j: nat)
    requires 0 < i && i + 1 < j && j + 1 < |s| && s[i] == '@' && s[j] == '.'
    requires AllPlain(s[..i]) && AllPlain(s[i + 1..j]) && AllPlain(s[j + 1..])
    ensures forall m :: 0 <= m < |s| ==> !IsSpace(s[m]) && (m != i ==> s[m] != '@')
  {
    var head, mid, tail := s[..i], s[i + 1..j], s[j + 1..];
    forall m | 0 <= m < |s| ensures !IsSpace(s[m]) && (m != i ==> s[m] != '@') {
      if m < i {
        assert s[m] == head[m];
      } else if i < m < j {
        assert s[m] == mid[m - i - 1];
      } else if j < m {
        assert s[m] == tail[m - j - 1];
      }
    }
  }

  /** The domain of a match holds no `@` and an inner `.`. */
  lemma DomainOfMatch(s: string, i: nat, j: nat, d: string)
    requires 0 < i && i + 1 < j && j + 1 < |s| && s[j] == '.' && d == s[i + 1..]
    requires forall m :: 0 <= m < |s| ==> (m != i ==> s[m] != '@')
    ensures IndexOfChar(d, '@') == |d| && HasInnerDot(d)
  {
    assert forall m :: 0 <= m < |d| ==> d[m] == s[i + 1 + m];
    assert d[j - i - 1] == '.';
  }

  /** The decision agrees with the regular expression on every input. */
  lemma EmailMatchesPattern(s: string)
    ensures IsEmail(s) <==> EmailPattern(s)
  {
    if IsEmail(s) {
      EmailDecisionMatches(s);
    }
    if EmailPattern(s) {
      EmailPatternDecides(s);
    }
  }

  // ---------------------------------------------------------------------------
  // PHONE_REGEX = /^[\+]?[1-9][\d]{0,15}$/ applied after removing [\s\-\(\)]

  predicate IsPhonePunct(c: char) {
    IsSpace(c) || c == '-' || c == '(' || c == ')'
  }

  function NotPhonePunct(c: char): bool {
    !IsPhonePunct(c)
  }

  /** `phone.replace(/[\s\-\(\)]/g, '')`. */
  function CleanPhone(s: string): string {
    Filter(s, NotPhonePunct)
  }

  /** `[1-9][\d]{0,15}`: a leading non-zero digit and at most fifteen more digits. */
  predicate PhoneDigits(u: string) {
    1 <= |u| <= 16 && '1' <= u[0] <= '9' && AllDigits(u)
  }

  /** The phone pattern: an optional `+` before the digit run. */
  predicate IsPhone(t: string) {
    PhoneDigits(t) || (|t| >= 1 && t[0] == '+' && PhoneDigits(t[1..]))
  }

  // ---------------------------------------------------------------------------
  // validateCardNumber, validateCVV, validateZipCode, validateExpiryDate

  /** What `validateCardNumber` accepts: with white space removed, 13 to 19 ASCII digits
      passing the Luhn check. */
  predicate IsCardNumber(s: string) {
    var c := StripSpaces(s);
    13 <= |c| <= 19 && AllDigits(c) && Luhn.Valid(c)
  }

  /** `validateCardNumber`, with the source's right-to-left loop. */
  method ValidateCardNumber(cardNumber: string) returns (ok: bool)
    ensures ok <==> IsCardNumber(cardNumber)
  {
    var cleaned := StripSpaces(cardNumber);
    if !(13 <= |cleaned| <= 19 && AllDigits(cleaned)) {
      return false;
    }
    var sum := Luhn.Checksum(cleaned);
    ok := sum % 10 == 0;
  }

  /** `/^\d{3,4}$/`. */
  predicate IsCvv(s: string) {
    (|s| == 3 || |s| == 4) && AllDigits(s)
  }

  /** `/^\d{5}(-\d{4})?$/`. */
  predicate IsZip(s: string) {
    || (|s| == 5 && AllDigits(s))
    || (|s| == 10 && AllDigits(s[..5]) && s[5] == '-' && AllDigits(s[6..]))
  }

  /** The regular expression `/^\d{3,4}$/` read as its parts: three digits, then at
      most one more. */
  ghost predicate CvvPattern(s: string) {
    exists d: string, o: string ::
      s == d + o && |d| == 3 && AllDigits(d) && |o| <= 1 && AllDigits(o)
  }

  /** `validateCVV` accepts exactly the strings the regular expression matches. */
  lemma CvvMatchesPattern(s: string)
    ensures IsCvv(s) <==> CvvPattern(s)
  {
    if IsCvv(s) {
      assert s == s[..3] + s[3..];
      DigitsSlice(s, 0, 3);
      DigitsSlice(s, 3, |s|);
    }
    if CvvPattern(s) {
      var d: string, o: string :| s == d + o && |d| == 3 && AllDigits(d) && |o| <= 1 && AllDigits(o);
      DigitsJoin(d, o);
    }
  }

  /** The regular expression `/^\d{5}(-\d{4})?$/` read as its parts: five digits, then
      either nothing or a dash and four digits. */
  ghost predicate ZipPattern(s: string) {
    exists d: string, g: string ::
      && s == d + g && |d| == 5 && AllDigits(d)
      && (g == "" || (|g| == 5 && g[0] == '-' && AllDigits(g[1..])))
  }

  /** `validateZipCode` accepts exactly the strings the regular expression matches. */
  lemma ZipMatchesPattern(s: string)
    ensures IsZip(s) <==> ZipPattern(s)
  {
    if IsZip(s) {
      var d, g := s[..5], s[5..];
      assert s == d + g;
      if |s| == 5 {
        DigitsSlice(s, 0, 5);
      } else {
        assert g[1..] == s[6..];
      }
    }
    if ZipPattern(s) {
      var d: string, g: string :| && s == d + g && |d| == 5 && AllDigits(d)
        && (g == "" || (|g| == 5 && g[0] == '-' && AllDigits(g[1..])));
      assert s[..5] == d;
      if g == "" {
        assert s == d;
      } else {
        assert s[5] == g[0] && s[6..] == g[1..];
      }
    }
  }

  /** A slice of a digit string is a digit string. */
  lemma DigitsSlice(s: string, i: nat, j: nat)
    requires i <= j <= |s| && AllDigits(s)
    ensures AllDigits(s[i..j])
  {
    forall k | 0 <= k < j - i ensures IsDigit(s[i..j][k]) {
      assert s[i..j][k] == s[i + k];
    }
  }

  /** Two digit strings joined are a digit string. */
  lemma DigitsJoin(a: string, b: string)
    requires AllDigits(a) && AllDigits(b)
    ensures AllDigits(a + b)
  {
    forall k | 0 <= k < |a + b| ensures IsDigit((a + b)[k]) {
      if k >= |a| {
        assert (a + b)[k] == b[k - |a|];
      }
    }
  }

  /** The current date as the expiry check reads it: `getFullYear()` and
      `getMonth() + 1`. */
  datatype Today = Today(fullYear: int, month: int)

  /** The `%` of the source, which truncates toward zero. */
  function JsRem(a: int, b: int): (r: int)
    requires b > 0
    ensures a >= 0 ==> 0 <= r < b
    ensures a < 0 ==> -b < r <= 0
  {
    if a >= 0 then a % b else -((-a) % b)
  }

  /** `/^(0[1-9]|1[0-2])\/\d{2}$/`. */
  predicate ExpiryShape(s: string) {
    && |s| == 5 && s[2] == '/' && IsDigit(s[3]) && IsDigit(s[4])
    && ((s[0] == '0' && '1' <= s[1] <= '9') || (s[0] == '1' && '0' <= s[1] <= '2'))
  }

  /** `parseInt` of the two month digits. */
  function ExpiryMonth(s: string): int
    requires |s| >= 2
  {
    10 * DigitValue(s[0]) + DigitValue(s[1])
  }

  /** `parseInt` of the two year digits. */
  function ExpiryYear(s: string): int
    requires |s| >= 5
  {
    10 * DigitValue(s[3]) + DigitValue(s[4])
  }

  /** `validateExpiryDate` on the date `today`. */
  predicate IsExpiry(s: string, today: Today) {
    && ExpiryShape(s)
    && var currentYear := JsRem(today.fullYear, 100);
       && !(ExpiryYear(s) < currentYear)
       && !(ExpiryYear(s) == currentYear && ExpiryMonth(s) < today.month)
  }

  /** The month alternatives of the pattern are exactly the two-digit months 01 to 12. */
  lemma ExpiryShapeIsMonthRange(s: string)
    ensures ExpiryShape(s) <==>
      && |s| == 5 && s[2] == '/'
      && IsDigit(s[0]) && IsDigit(s[1]) && IsDigit(s[3]) && IsDigit(s[4])
      && 1 <= ExpiryMonth(s) <= 12
  {
  }

  /** The expiry check rejects exactly the months strictly before the current one:
      counted in months, the expiry must not precede today's month. The current
      month itself is accepted. */
  lemma ExpiryByMonthCount(s: string, today: Today)
    requires 1 <= today.month <= 12
    ensures IsExpiry(s, today) <==>
      ExpiryShape(s) && ExpiryYear(s) * 12 + ExpiryMonth(s) >= JsRem(today.fullYear, 100) * 12 + today.month
  {
    if ExpiryShape(s) {
      ExpiryShapeIsMonthRange(s);
    }
  }

  // ---------------------------------------------------------------------------
  // Accepted values are never blank

  lemma EmailNotBlank(s: string)
    requires IsEmail(s)
    ensures !Blank(s)
  {
    NotBlankWhenNonSpace(s, IndexOfChar(s, '@'));
  }

  lemma PhoneNotBlank(s: string)
    requires IsPhone(CleanPhone(s))
    ensures !Blank(s)
  {
    var t := CleanPhone(s);
    FilterFrom(s, NotPhonePunct);
    assert t[0] in s;
    var k :| 0 <= k < |s| && s[k] == t[0];
    NotBlankWhenNonSpace(s, k);
  }

  lemma CardNumberNotBlank(s: string)
    requires IsCardNumber(s)
    ensures !Blank(s)
  {
    var t := StripSpaces(s);
    FilterFrom(s, NotSpace);
    assert t[0] in s;
    var k :| 0 <= k < |s| && s[k] == t[0];
    NotBlankWhenNonSpace(s, k);
  }

  lemma DigitLedNotBlank(s: string)
    requires |s| > 0 && IsDigit(s[0])
    ensures !Blank(s)
  {
    NotBlankWhenNonSpace(s, 0);
  }

  // ---------------------------------------------------------------------------
  // validateCheckoutForm

  /** The fields `validateCheckoutForm` checks: every text field but the special
      instructions. */
  const CheckedFields: set<TextField> := {
    FirstName, LastName, Email, Phone, Address, City, State, ZipCode, Country,
    CardNumber, ExpiryDate, Cvv, CardholderName
  }

  /** The message a blank field gets. */
  function RequiredMessage(f: TextField): string {
    match f
    case FirstName => "First name is required"
    case LastName => "Last name is required"
    case Email => "Email is required"
    case Phone => "Phone number is required"
    case Address => "Address is required"
    case City => "City is required"
    case State => "State is required"
    case ZipCode => "ZIP code is required"
    case Country => "Country is required"
    case CardNumber => "Card number is required"
    case ExpiryDate => "Expiry date is required"
    case Cvv => "CVV is required"
    case CardholderName => "Cardholder name is required"
    case SpecialInstructions => ""
  }

  /** The format or length rule of a field that is not blank. */
  predicate FormatOk(d: FormData, today: Today, f: TextField) {
    match f
    case FirstName => |Trim(d.firstName)| >= 2
    case LastName => |Trim(d.lastName)| >= 2
    case Email => IsEmail(d.email)
    case Phone => IsPhone(CleanPhone(d.phone))
    case Address => |Trim(d.address)| >= 5
    case City => |Trim(d.city)| >= 2
    case State => |Trim(d.state)| >= 2
    case ZipCode => IsZip(d.zipCode)
    case Country => true
    case CardNumber => IsCardNumber(d.cardNumber)
    case ExpiryDate => IsExpiry(d.expiryDate, today)
    case Cvv => IsCvv(d.cvv)
    case CardholderName => |Trim(d.cardholderName)| >= 2
    case SpecialInstructions => true
  }

  /** The message a field that breaks its format or length rule gets. */
  function FormatMessage(f: TextField): string {
    match f
    case FirstName => "First name must be at least 2 characters"
    case LastName => "Last name must be at least 2 characters"
    case Email => "Please enter a valid email address"
    case Phone => "Please enter a valid phone number"
    case Address => "Please enter a complete address"
    case City => "Please enter a valid city name"
    case State => "Please enter a valid state"
    case ZipCode => "Please enter a valid ZIP code (12345 or 12345-6789)"
    case Country => ""
    case CardNumber => "Please enter a valid card number"
    case ExpiryDate => "Please enter a valid expiry date (MM/YY)"
    case Cvv => "Please enter a valid CVV (3-4 digits)"
    case CardholderName => "Please enter the full name on the card"
    case SpecialInstructions => ""
  }

  /** The message `validateCheckoutForm` sets for field `f`, if any: the required
      message when blank, else the format message when the rule fails. */
  function FieldError(d: FormData, today: Today, f: TextField): Option<string> {
    if f !in CheckedFields then None
    else if Blank(d.Text(f)) then Some(RequiredMessage(f))
    else if FormatOk(d, today, f) then None
    else Some(FormatMessage(f))
  }

  /** The contact and shipping fields are acceptable, stated without the blank
      tests: each format or length rule implies the value is not blank. */
  predicate ContactValid(d: FormData) {
    && |Trim(d.firstName)| >= 2
    && |Trim(d.lastName)| >= 2
    && IsEmail(d.email)
    && IsPhone(CleanPhone(d.phone))
    && |Trim(d.address)| >= 5
    && |Trim(d.city)| >= 2
    && |Trim(d.state)| >= 2
    && IsZip(d.zipCode)
    && !Blank(d.country)
  }

  /** The payment fields are acceptable. */
  predicate PaymentValid(d: FormData, today: Today) {
    && IsCardNumber(d.cardNumber)
    && IsExpiry(d.expiryDate, today)
    && IsCvv(d.cvv)
    && |Trim(d.cardholderName)| >= 2
  }

  /** The whole form is acceptable. */
  predicate FormValid(d: FormData, today: Today) {
    ContactValid(d) && PaymentValid(d, today)
  }

  /** A checked field gets no message exactly when its format or length rule holds
      (for the country: when it is not blank). */
  lemma FieldErrorNone(d: FormData, today: Today, f: TextField)
    requires f in CheckedFields
    ensures FieldError(d, today, f).None? <==> FieldRule(d, today, f)
  {
    if f != Country && FormatOk(d, today, f) {
      RuleNotBlank(d, today, f);
    }
  }

  /** A value that meets its field's format or length rule is not blank. */
  lemma RuleNotBlank(d: FormData, today: Today, f: TextField)
    requires f in CheckedFields && f != Country && FormatOk(d, today, f)
    ensures !Blank(d.Text(f))
  {
    match f
    case Email => EmailNotBlank(d.email);
    case Phone => PhoneNotBlank(d.phone);
    case ZipCode => DigitLedNotBlank(d.zipCode);
    case CardNumber => CardNumberNotBlank(d.cardNumber);
    case ExpiryDate => DigitLedNotBlank(d.expiryDate);
    case Cvv => DigitLedNotBlank(d.cvv);
    case FirstName =>
    case LastName =>
    case Address =>
    case City =>
    case State =>
    case CardholderName =>
  }

  /** The rule a checked field must meet to get no message. */
  predicate FieldRule(d: FormData, today: Today, f: TextField) {
    if f == Country then !Blank(d.country) else FormatOk(d, today, f)
  }

  lemma FieldPasses(d: FormData, today: Today, f: TextField)
    requires FieldError(d, today, f).None?
    requires f in CheckedFields
    ensures FieldRule(d, today, f)
  {
    FieldErrorNone(d, today, f);
  }

  lemma ContactRulesValid(d: FormData, today: Today)
    requires && FieldRule(d, today, FirstName) && FieldRule(d, today, LastName)
             && FieldRule(d, today, Email) && FieldRule(d, today, Phone)
             && FieldRule(d, today, Address) && FieldRule(d, today, City)
             && FieldRule(d, today, State) && FieldRule(d, today, ZipCode)
             && FieldRule(d, today, Country)
    ensures ContactValid(d)
  {
  }

  lemma PaymentRulesValid(d: FormData, today: Today)
    requires && FieldRule(d, today, CardNumber) && FieldRule(d, today, ExpiryDate)
             && FieldRule(d, today, Cvv) && FieldRule(d, today, CardholderName)
    ensures PaymentValid(d, today)
  {
  }

  /** When no field has a message, the form is valid. */
  lemma AllFieldsPassValid(d: FormData, today: Today)
    requires forall f :: FieldError(d, today, f).None?
    ensures FormValid(d, today)
  {
    FieldPasses(d, today, FirstName);
    FieldPasses(d, today, LastName);
    FieldPasses(d, today, Email);
    FieldPasses(d, today, Phone);
    FieldPasses(d, today, Address);
    FieldPasses(d, today, City);
    FieldPasses(d, today, State);
    FieldPasses(d, today, ZipCode);
    FieldPasses(d, today, Country);
    FieldPasses(d, today, CardNumber);
    FieldPasses(d, today, ExpiryDate);
    FieldPasses(d, today, Cvv);
    FieldPasses(d, today, CardholderName);
    ContactRulesValid(d, today);
    PaymentRulesValid(d, today);
  }

  /** On a valid form every checked field passes. */
  lemma ValidFieldsPass(d: FormData, today: Today, f: TextField)
    requires FormValid(d, today)
    requires f in CheckedFields
    ensures FieldError(d, today, f).None?
  {
    FieldErrorNone(d, today, f);
  }

  /** No field has a message exactly when the whole form is valid. */
  lemma AllFieldsPassIff(d: FormData, today: Today)
    ensures (forall f :: FieldError(d, today, f).None?) <==> FormValid(d, today)
  {
    if forall f :: FieldError(d, today, f).None? {
      AllFieldsPassValid(d, today);
    }
    if FormValid(d, today) {
      forall f ensures FieldError(d, today, f).None? {
        if f in CheckedFields {
          ValidFieldsPass(d, today, f);
        }
      }
    }
  }

  /** `validateCheckoutForm`: one message per failing checked field. */
  function ValidateCheckoutForm(d: FormData, today: Today): (errors: Errors)
    ensures General !in errors
    ensures forall k :: k in errors ==> k.On? && k.field in CheckedFields
  {
    map f | f in CheckedFields && FieldError(d, today, f).Some? :: On(f) := FieldError(d, today, f).value
  }

  /** The map holds a field's key exactly when the field has a message, and then
      holds that message. */
  lemma ValidateCheckoutFormKey(d: FormData, today: Today, f: TextField)
    ensures On(f) in ValidateCheckoutForm(d, today) <==> FieldError(d, today, f).Some?
    ensures On(f) in ValidateCheckoutForm(d, today) ==>
      ValidateCheckoutForm(d, today)[On(f)] == FieldError(d, today, f).value
  {
  }

  /** Every message the form check sets is a non-empty string. */
  lemma FieldErrorNonEmpty(d: FormData, today: Today, f: TextField)
    ensures FieldError(d, today, f).Some? ==> FieldError(d, today, f).value != ""
  {
    var e := FieldError(d, today, f);
    FieldErrorShape(d, today, f);
    if e.Some? {
      MessagesNonEmpty(f);
    }
  }

  /** A message is set only for a checked field, and it is the field's required
      message or, for a field other than the country, its format message. */
  lemma FieldErrorShape(d: FormData, today: Today, f: TextField)
    ensures var e := FieldError(d, today, f);
      e.Some? ==>
        && f in CheckedFields
        && (e.value == RequiredMessage(f) || (f != Country && e.value == FormatMessage(f)))
  {
    if f == Country {
      assert FormatOk(d, today, f);
    }
  }

  lemma MessagesNonEmpty(f: TextField)
    requires f in CheckedFields
    ensures RequiredMessage(f) != ""
    ensures f != Country ==> FormatMessage(f) != ""
  {
    RequiredMessageNonEmpty(f);
    if f != Country {
      FormatMessageNonEmpty(f);
    }
  }

  lemma RequiredMessageNonEmpty(f: TextField)
    requires f != SpecialInstructions
    ensures |RequiredMessage(f)| > 0
  {
    match f
    case FirstName =>
    case LastName =>
    case Email =>
    case Phone =>
    case Address =>
    case City =>
    case State =>
    case ZipCode =>
    case Country =>
    case CardNumber =>
    case ExpiryDate =>
    case Cvv =>
    case CardholderName =>
  }

  lemma FormatMessageNonEmpty(f: TextField)
    requires f != SpecialInstructions && f != Country
    ensures |FormatMessage(f)| > 0
  {
    match f
    case FirstName =>
    case LastName =>
    case Email =>
    case Phone =>
    case Address =>
    case City =>
    case State =>
    case ZipCode =>
    case CardNumber =>
    case ExpiryDate =>
    case Cvv =>
    case CardholderName =>
  }

  /** A blank checked field gets its "required" message; a non-blank one gets a
      message exactly when its format or length rule fails. */
  lemma ValidateCheckoutFormMessages(d: FormData, today: Today, f: TextField)
    requires f in CheckedFields
    ensures Blank(d.Text(f)) ==>
      On(f) in ValidateCheckoutForm(d, today) && ValidateCheckoutForm(d, today)[On(f)] == RequiredMessage(f)
    ensures !Blank(d.Text(f)) && f != Country ==>
      (On(f) in ValidateCheckoutForm(d, today) <==> !FormatOk(d, today, f))
    ensures f == Country ==> (On(f) in ValidateCheckoutForm(d, today) <==> Blank(d.country))
  {
    ValidateCheckoutFormKey(d, today, f);
  }

  /** The form produces no error exactly when it is valid. */
  lemma ValidateCheckoutFormEmptyIff(d: FormData, today: Today)
    ensures ValidateCheckoutForm(d, today) == map[] <==> FormValid(d, today)
  {
    var errors := ValidateCheckoutForm(d, today);
    AllFieldsPassIff(d, today);
    if errors == map[] {
      forall f ensures FieldError(d, today, f).None? {
        ValidateCheckoutFormKey(d, today, f);
      }
    }
    if FormValid(d, today) {
      forall k | k in errors ensures false {
        ValidateCheckoutFormKey(d, today, k.field);
      }
    }
  }
}

=== FILE: wrappers.dfy ===
/** The optional value used wherever the source yields `undefined`, `null` or `NaN`. */
module Wrappers {

  datatype Option<+T> = None | Some(value: T) {

    /** Returns the value in Some, or a default value if None */
    function GetOr(default: T): T {
      match this
      case Some(v) => v
      case None => default
    }
  }
}
